=== FILE: README.md ===
# Lunch-attendance tracker — a Dafny model of its core

The tracker records, per day, which employees take part in the office
lunch, what one lunch costs, and what a date range costs in total. A
FastAPI backend keeps the records and the price in a database, imports
them from spreadsheets, exports them as Excel or PDF reports, and accepts
changes from a webhook. A React dashboard lists a date range, edits rows
in a grid, adds, deletes and imports records, sets the price and
downloads reports.

This project models that behaviour as immutable datatypes and pure
transitions, and proves what each operation promises:

| module | file | models |
|---|---|---|
| `Options` | options.dfy | `Option` and `Remote` (`Ok(data)` / `Err`, the outcome of one remote call) |
| `Text` | text.dfy | Python's `str.strip`, `str.lower`, `str.upper` and string order, as far as the core uses them |
| `Dates` | dates.dfy | calendar days, their order, and `YYYY-MM-DD` formatting and parsing |
| `DayText` | daytext.dfy | how the client's date library (dayjs) reads day text, rolls out-of-range days over, and formats days and date-picker values |
| `Schemas` | schemas.dfy | `backend/app/schemas.py`: request/response bodies and their validation |
| `Logs` | logs.dfy | `backend/app/logs.py`: the newest-first log capped at 200 entries |
| `Crud` | crud.py → crud.dfy | `backend/app/crud.py`: the store (`map<int, Employee>`, price, user, next id) and its operations |
| `Exporter` | exporter.dfy | `backend/app/exporter.py`: report rows, the Excel summary row, the PDF table layout |
| `Handlers` | handlers.dfy | the logic of the endpoints in `backend/app/main.py` |
| `Api` | api.dfy | `frontend/src/api.js`: base-URL resolution and the bearer header |
| `Dashboard` | dashboard.dfy | `frontend/src/components/Dashboard.jsx`: client state and handlers |

The store is `Db(employees, settings, user, nextId)`. `employees` maps each
id to the record carrying that id. `settings` is the price row, absent
until first needed. New records take `nextId`, which stands for the
database's id allocation. Every store operation requires and keeps `Valid`:
keys are positive, below `nextId`, equal to the record's id, and every date
is a calendar date. Errors the source raises become values: `Outcome`
(`Done` / `NotFound`) in the store, and `Response` (`Success` / `Error(status)`)
at the HTTP layer.

Each dashboard handler takes the state, plus the outcome of every remote
call it makes. It returns the next state and the list of requests it sent,
in order. Results that come from code outside the core are parameters:
today's date (`dayjs()`), what `parseFloat` read from the price field, the
password hash function, and whether the delete confirmation was accepted.

Three places where the client's behaviour is easy to misread are modelled
as the code has them:
- The row editor compares `status` raw, before normalising it. A status
  that changes only its representation, say from `true` to `"true"`, is
  still sent.
- A price update refetches with no arguments. That fetch falls back to the
  selected range, so the range is kept (`Dashboard.PriceUpdateKeepsRange`).
- An import refetches only after the upload succeeded.

Dates on the client go through dayjs, and the model follows it rather
than ISO. A date picker can hold an invalid date while its text is only
partly typed. Such a value is sent as `Invalid Date`, which the server
rejects with 422. The range pickers pass any value on, and the add
dialog's picker ignores only a cleared value. A date typed into the grid
is read by dayjs's own pattern: four year digits, then optional
separators and one- or two-digit month and day. Out-of-range values roll
over, so `2024-02-30` is sent as `2024-03-01`. dayjs also reads the years
0–99 as 1900–1999, so a record dated in the year 50 is shown as 1950.

The export filename carries the raw type tag. An Excel download is
requested as `excel`, so the browser saves `….excel`, while the server
names the same file `….xlsx`. `Dashboard.ExportNamesAgainstServer` states
this difference.

## Model

| member | source | states |
|---|---|---|
| `Dates.FormatThenParse` | backend/app/exporter.py:17 | the `YYYY-MM-DD` text of a calendar day parses back to that day |
| `Dates.ParseThenFormat` | backend/app/exporter.py:17 | text that parses as a day is exactly that day's ISO text, so each day has one spelling |
| `Schemas.NewToken` | backend/app/schemas.py:7-9 | a token response carries the given access token and the default type `bearer` |
| `Schemas.MakeUserUpdate` | backend/app/schemas.py:17-19 | a credentials body validates iff the password is absent or at least 6 characters long; both fields stay optional |
| `Schemas.MakeSettingsUpdate` | backend/app/schemas.py:27-28 | a price body validates iff the price is strictly positive |
| `Schemas.DecodeEmployeeCreate` | backend/app/schemas.py:31-39 | a create body validates iff `full_name` and a valid `date` are present and `status`/`note` are well typed when present; each field carries the body's value (the name as given, the date as the day its ISO text names, the note as the string or null sent), a missing status becomes true and a missing note null |
| `Schemas.DecodeEmployeeUpdate` | backend/app/schemas.py:42-46 | every update field is optional, and a field is set exactly when its key is present with a well-typed value, and then carries that value (the date as the day its ISO text names); `note` may be null |
| `Schemas.CreateRoundTrip` | backend/app/schemas.py:31-39 | encoding a valid record as a JSON body and validating it gives back the same record |
| `Logs.Add` | backend/app/logs.py:7-16 | the new entry goes first, with its level upper-cased and its message verbatim; below 200 entries the log grows by one, at 200 the oldest entry is dropped and the rest keep their order |
| `Logs.List` | backend/app/logs.py:18-19 | `list` returns the stored entries as they are, newest first and never more than 200; `Logs.ReplayKeepsNewest` says which entries those are |
| `Logs.ReplayKeepsNewest` | backend/app/logs.py:7-19 | after any sequence of `add` calls, the log and what `list` returns are the newest 200 calls at most, newest first, levels upper-cased |
| `Crud.EnsureSettings` | backend/app/crud.py:34-42 | an existing price row is returned unchanged; when none exists, one with price 150.0 is created |
| `Crud.EnsureSettingsIdempotent` | backend/app/crud.py:34-42 | a second `ensure_settings` returns the same row and creates nothing |
| `Crud.Insert` | backend/app/crud.py:51 | inserting into the ordered list adds exactly one element and keeps the order (date descending, then name ascending) and distinct ids |
| `Crud.ListEmployees` | backend/app/crud.py:45-53 | the result holds exactly the stored records with `start <= date <= end` (an absent bound is open), each once, in date-descending, name-ascending order, plus the price from `ensure_settings` |
| `Crud.AggregateCost` | backend/app/crud.py:106-115 | the count is the number of participating records in the inclusive range (0 when none), and the total is that count times the current price |
| `Crud.ListedParticipantsMatchAggregate` | backend/app/crud.py:106-115 | counting the participants of any listing of a range gives the same number `aggregate_cost` reports for that range |
| `Crud.CreateEmployee` | backend/app/crud.py:56-62 | exactly one record is added, under an id not currently in use, carrying the payload's fields; existing records, price and user are untouched |
| `Crud.ApplyUpdate` | backend/app/crud.py:69-70 | each field set in the update is overwritten; every other field and the id keep their values |
| `Crud.ApplyUpdateIdempotent` | backend/app/crud.py:69-70 | applying the same partial update twice equals applying it once |
| `Crud.UpdateEmployee` | backend/app/crud.py:65-74 | an unknown id raises "not found" and nothing changes; otherwise only that record changes, by the update's set fields, and the set of ids stays the same |
| `Crud.DeleteEmployee` | backend/app/crud.py:77-83 | an unknown id raises "not found"; otherwise exactly that id is removed and every other record is unchanged |
| `Crud.UpdateCredentials` | backend/app/crud.py:86-94 | the user name changes only for a non-empty name, and the hash only for a non-empty password, becoming the hash of that password |
| `Crud.CredentialsTakeEffect` | backend/app/crud.py:86-94 | after an update, the new name and the new password sign in as `authenticate_user` checks; a name change alone keeps the old password, a password change alone keeps the old name; repeating the update, even with a freshly salted hash, keeps the name and the new password still signs in, and without a password it changes nothing |
| `Crud.UpdateLunchPrice` | backend/app/crud.py:97-103 | the price becomes the given value, records and user are untouched, and a later `ensure_settings` returns that price |
| `Handlers.ListEndpoint` | backend/app/main.py:83-98 | the listing is that of `list_employees`; `total_participants` and `total_cost` equal what `aggregate_cost` gives for the same range, and the cost is participants times price |
| `Handlers.CredentialsEndpoint` | backend/app/main.py:52-61 | 400 iff neither a non-empty user name nor a non-empty password is given; otherwise the user is updated as `update_credentials` does |
| `Handlers.SettingsEndpoint` | backend/app/main.py:73-80 | a validated (positive) price is stored and answered; the records are untouched |
| `Handlers.EditEmployee` | backend/app/main.py:110-120 | "not found" becomes 404 exactly for unknown ids; otherwise the answer is the updated record and store |
| `Handlers.RemoveEmployee` | backend/app/main.py:123-133 | "not found" becomes 404 exactly for unknown ids; otherwise only that id leaves the store |
| `Handlers.StatusCaseInsensitive` | backend/app/main.py:154 | a status cell means the same in any letter case |
| `Handlers.StatusIgnoresSurroundingSpace` | backend/app/main.py:154 | surrounding whitespace does not change a status cell's meaning |
| `Handlers.ParseRow` | backend/app/main.py:151-157 | a sheet row becomes a record iff its date is a calendar date; the name is stripped, the status is true iff the stripped, lower-cased cell is a participation token, and the note is the sheet's note cell when the sheet has a note column and none otherwise |
| `Handlers.ImportRows` | backend/app/main.py:149-162 | importing rows never aborts; the answer is the number of records actually created, and ids advance by exactly that number |
| `Handlers.StoreAllContents` | backend/app/main.py:150-159 | storing parsed records one by one keeps every old record and puts the j-th record under the j-th fresh id, adding nothing else |
| `Handlers.ImportRowsCreatesAccepted` | backend/app/main.py:149-162 | the store after an import is the old store plus exactly the rows that parse, in sheet order, under consecutive fresh ids |
| `Handlers.ImportEmployees` | backend/app/main.py:136-162 | an unreadable file, or a sheet missing one of Ф.И.О, Статус, Дата, is 400; otherwise the valid rows are added, the old records are kept, and the answer counts the created rows |
| `Handlers.AttachmentName` | backend/app/main.py:182 | the download name is `employees_`, then text that parses back to the start day, `_`, text that parses back to the end day, then the extension |
| `Handlers.DownloadExcel` | backend/app/main.py:170-187 | 422 iff a date bound is missing; otherwise the totals equal those of the list endpoint, the file is named `….xlsx`, and the sheet has, in listing order, exactly the report row of each listed record, plus the summary row when prices are included |
| `Handlers.DownloadPdf` | backend/app/main.py:190-203 | 422 iff a date bound is missing; otherwise the totals equal those of the list endpoint, the file is named `….pdf`, the i-th table line shows, under each header, the report row of the i-th listed record, and there is a total line iff prices are included |
| `Handlers.Webhook` | backend/app/main.py:206-232 | a wrong secret is 403 before any other check; `add` without an employee is 400; `update` needs a non-zero id and an update, and `delete` a non-zero id, else 400; an unknown id is 404; any other action is 400 |
| `Handlers.WebhookActionCaseInsensitive` | backend/app/main.py:210 | the webhook action is matched regardless of letter case |
| `Exporter.EmployeesToRows` | backend/app/exporter.py:10-22 | one row per employee, in input order, numbered from 1; the label is "Участвует" for participants and "Не участвует" for the others; the date is ISO text; a cost is present iff prices are included, and it is the price for participants and 0 otherwise |
| `Exporter.Cells` | backend/app/exporter.py:13-20 | a report row has the four base columns, plus "Стоимость" exactly when it carries a cost |
| `Exporter.ExcelSheet` | backend/app/exporter.py:25-36 | the sheet is the rows, plus exactly one summary row ("Итого" under Дата, the total under Стоимость) iff prices are included |
| `Exporter.BuildPdfTable` | backend/app/exporter.py:50-68 | headers and widths always have equal length: the four base columns, plus "Стоимость" 30 wide iff prices are included; the total label spans every width but the last, and the total is printed only with prices |
| `Exporter.PdfCellsComeFromRows` | backend/app/exporter.py:58-63 | every PDF cell is the row's own value for that header, never the empty default, and the total label is 145 wide |
| `Api.ResolveDefaultBaseUrl` | frontend/src/api.js:3-19 | no window gives `http://localhost:8000`; port 5173 gives the same, ahead of the https rule; an empty port, https, or port 3080/443/80 gives `/api`; any other page gives `protocol//hostname:8000` |
| `Api.ResolvedAddressReachesBackend` | frontend/src/api.js:3-19 | every resolved address is either the proxy prefix or an address on the backend port 8000 |
| `Api.BaseUrl` | frontend/src/api.js:21-23 | a non-empty configured URL overrides the resolved default |
| `Api.TokenOf` | frontend/src/api.js:28 | reading the token back out of a `Bearer …` header value inverts building it |
| `Api.Intercept` | frontend/src/api.js:25-31 | with a stored non-empty token the request gains `Authorization`, carrying exactly that token, and keeps its other headers; otherwise it goes out unchanged |
| `Api.InterceptIdempotent` | frontend/src/api.js:25-31 | running the interceptor twice adds nothing further |
| `Dashboard.DefaultDraft` | frontend/src/components/Dashboard.jsx:48-53 | a fresh draft has an empty name, takes part, is dated today and has an empty note |
| `Dashboard.Initial` | frontend/src/components/Dashboard.jsx:56-65 | the dashboard mounts idle, with no rows, price 150, zero totals, no range and a fresh draft |
| `Dashboard.Effective` | frontend/src/components/Dashboard.jsx:71-72 | a left-out fetch bound falls back to the selected one, and a given one (even null) is used as is |
| `Dashboard.RangeQuery` | frontend/src/components/Dashboard.jsx:75-77 | `start_date`/`end_date` are sent exactly when the bound is set; the server reads each back as that same day, or rejects it when the picker held an invalid date |
| `Dashboard.Fetch` | frontend/src/components/Dashboard.jsx:69-96 | one GET for the effective range; success replaces rows, totals, price and the price field together, failure keeps all four; loading is off afterwards either way |
| `Dashboard.LatestFetchWins` | frontend/src/components/Dashboard.jsx:78-88 | after two successful fetches the state is what the second alone would have produced |
| `Dashboard.FetchedRowsMatchServer` | frontend/src/components/Dashboard.jsx:79-85 | the grid rows carry the server's ids, names and statuses; each date's text names the server's day as dayjs reads it, and is the server's own text from the year 100 on |
| `DayText.Roll` | frontend/src/components/Dashboard.jsx:83 | the day `new Date(year, month, day)` lands on is always a calendar day, within a year of the month asked for per 28 days of overflow |
| `DayText.RollCountsDays` | frontend/src/components/Dashboard.jsx:83 | rolling over agrees with counting days one at a time: day d of a month is d-1 days after its first |
| `DayText.RollZeroPrecedesFirst` | frontend/src/components/Dashboard.jsx:83 | day 0 of a month is the day before its first |
| `DayText.Reformat` | frontend/src/components/Dashboard.jsx:83 | text of another shape than the date part of dayjs's parse pattern becomes `Invalid Date`; matching text becomes the text of the day its numbers resolve to |
| `DayText.IsoTextRead` | frontend/src/components/Dashboard.jsx:83 | the ISO text of a calendar day is read as that day, with years 1–99 shifted to 1901–1999, and written back as its ISO text; from the year 100 on it is sent unchanged |
| `DayText.ServerReadsReformat` | frontend/src/components/Dashboard.jsx:130 | the server reads the reformatted text as exactly the day dayjs resolved when its year has four digits, and rejects it otherwise |
| `DayText.ReformatRollsOver` | frontend/src/components/Dashboard.jsx:130 | `2024-02-30` is sent as `2024-03-01` |
| `DayText.ReformatPads` | frontend/src/components/Dashboard.jsx:130 | `2024-1-5` is sent as `2024-01-05` |
| `DayText.ReformatWithoutSeparators` | frontend/src/components/Dashboard.jsx:130 | `20240105` is sent as `2024-01-05` |
| `DayText.PickerText` | frontend/src/components/Dashboard.jsx:76-77 | a picker value is sent as ISO text that the server reads back as that day, or as `Invalid Date`, which it cannot read |
| `Dashboard.NormalizeStatus` | frontend/src/components/Dashboard.jsx:119-124 | text counts as true only when it is "true" or "1"; other values follow truthiness |
| `Dashboard.NormalizeStatusStable` | frontend/src/components/Dashboard.jsx:119-124 | a normalised status normalises to itself |
| `Dashboard.BuildPayload` | frontend/src/components/Dashboard.jsx:127-131 | the edit body has exactly those of full_name/status/date/note whose raw values differ, with the status normalised after the raw comparison |
| `Dashboard.PayloadEmptyIffUnchanged` | frontend/src/components/Dashboard.jsx:126-132 | the edit body is empty iff none of the four fields changed, and never contains `id` |
| `Dashboard.EditedDay` | frontend/src/components/Dashboard.jsx:130 | the day the server reads from an edited date cell is what it parses from dayjs's reformatted text, and an ISO day from the year 100 on is read as itself |
| `Dashboard.PayloadDecodesToChanges` | frontend/src/components/Dashboard.jsx:126-131 | the server accepts the edit body iff the date is unchanged or the edited text reads as a day, and then updates exactly the changed fields, to the edited values and the day dayjs resolved |
| `Dashboard.ProcessRowUpdate` | frontend/src/components/Dashboard.jsx:126-137 | an empty diff sends nothing and keeps the row; otherwise one PUT, then after success exactly one refetch of the selected range; a failed PUT is passed on and nothing is refetched |
| `Dashboard.AddPayloadIsDraft` | frontend/src/components/Dashboard.jsx:102-110 | the server reads the add body as exactly the draft's four fields, and rejects it when the draft's picker held an invalid date |
| `Dashboard.HandleAdd` | frontend/src/components/Dashboard.jsx:102-117 | one POST with all four fields, whatever the draft's date; success closes the dialog, resets the draft to today's defaults and refetches the range once, leaving the state exactly as that refetch leaves it with the range kept; failure changes nothing |
| `Dashboard.PickDraftDate` | frontend/src/components/Dashboard.jsx:478-481 | a cleared picker leaves the draft alone; any other value, invalid included, becomes the draft's date, and nothing else changes |
| `Dashboard.PickedDateReachesServer` | frontend/src/components/Dashboard.jsx:478-481 | after picking a date, the add request is accepted iff the picked value is a calendar day, and then carries exactly that day |
| `Dashboard.HandleDelete` | frontend/src/components/Dashboard.jsx:143-151 | a declined confirmation sends nothing; otherwise one DELETE and, after success, one refetch |
| `Dashboard.ImportBegin` | frontend/src/components/Dashboard.jsx:156 | the import indicator goes on when an upload starts |
| `Dashboard.ImportEnd` | frontend/src/components/Dashboard.jsx:157-169 | the refetch happens only after a successful upload, and the indicator is off either way |
| `Dashboard.HandleImport` | frontend/src/components/Dashboard.jsx:153-170 | no file does nothing; otherwise one upload runs between the indicator going on and going off |
| `Dashboard.RangeLabel` | frontend/src/components/Dashboard.jsx:193-194 | an unset bound is labelled `all`; a set one by text that parses back to the picked day, or `Invalid Date` |
| `Dashboard.HandleExport` | frontend/src/components/Dashboard.jsx:191-199 | one download request with `include_price` and the set bounds, requested under the name `employees_<start\|all>_<end\|all>.<type>`; the state is untouched |
| `Dashboard.ExportWithoutBoundLacksIt` | frontend/src/components/Dashboard.jsx:191-199 | an export with a bound unset sends no value for that bound, so the server refuses it (422) and no file is saved |
| `Dashboard.ExportNamesAgainstServer` | frontend/src/components/Dashboard.jsx:197 | with both bounds set, a PDF is saved under the server's name, but an Excel file as `.excel` instead of the server's `.xlsx` |
| `Dashboard.HandlePriceUpdate` | frontend/src/components/Dashboard.jsx:201-211 | a missing or non-positive price sends nothing and changes nothing; otherwise one PUT, and after success the returned price is stored and the list is fetched with no arguments |
| `Dashboard.PriceUpdateKeepsRange` | frontend/src/components/Dashboard.jsx:205-207 | the fetch after a price update asks for the selected range |
| `Dashboard.SelectStart` | frontend/src/components/Dashboard.jsx:352-356 | any start value, cleared or invalid included, becomes the selection and the new range is fetched |
| `Dashboard.SelectEnd` | frontend/src/components/Dashboard.jsx:357-361 | any end value, cleared or invalid included, becomes the selection and the new range is fetched |
| `Dashboard.RunKeepsIdle` | frontend/src/components/Dashboard.jsx:69-211 | every handler, once its calls settle, leaves an idle dashboard idle, and only a range selection changes the selected range |
| `Dashboard.RunAll` | frontend/src/components/Dashboard.jsx:69-211 | a sequence of settled actions without a range selection keeps the selected range |
| `Dashboard.RunAllIdle` | frontend/src/components/Dashboard.jsx:69-211 | after any sequence of settled actions the dashboard is neither loading nor importing |

## Left out

- Authentication (`backend/app/auth.py`): bcrypt hashing and JWT issuing and checking are foreign library calls. The hash is a function parameter of `Crud.UpdateCredentials`. `ensure_default_user` and login are not modelled.
- Persistence and HTTP plumbing: SQLAlchemy sessions, commits and refreshes; FastAPI routing and dependency injection; CORS; the startup hook. Each handler is one atomic transition on the store.
- Id allocation: ids come from the counter `nextId`, which a delete leaves alone, so the model never hands out an id again. That is the behaviour of a sequence or of SQLite's AUTOINCREMENT; a plain SQLite integer key may reuse the highest id after it is deleted, which the model does not show.
- Log writes by the store operations are not threaded through the store transitions. `Logs` models the log itself, and timestamps are opaque integers standing for the clock.
- File formats: `pd.read_excel`, `pd.to_datetime`, DataFrame/ExcelWriter, FPDF rendering and latin-1 encoding. The import works on already-decoded rows, and `Upload.Unreadable` stands for a file that cannot be read. The exports produce the sheet and table contents, not bytes.
- Handlers.ParseRow: a date cell counts only as an already-decoded calendar day, and pandas' lenient date parsing is not modelled. The note cell is taken as text or absent: a blank note cell (pandas' NaN) or a numeric one reaches pydantic unconverted, which, depending on its version, turns it into text such as `nan` or rejects it and skips the row; the model shows neither.
- Text.Lower / Text.Upper: cover ASCII and the basic Cyrillic alphabet (А–я, Ѐ–џ), not all of Unicode case mapping.
- Schemas: bodies are flat JSON objects of scalars. Lenient coercions (`"yes"` for a boolean, a number for a string) are rejected rather than coerced. The nested webhook body is represented by its decoded datatype `WebhookPayload`.
- Schemas.DecodeEmployeeUpdate: rejects an explicit null for `full_name`, `status` or `date`. The source's `Optional` fields (`backend/app/schemas.py:43-45`) accept it, and `update_employee` then writes NULL into the record: a NOT NULL failure (500) for `full_name`, a record later responses cannot serialise for `status` and `date`. Those failures are not modelled.
- Crud.ListEmployees, Crud.Insert: names are ordered by code point, which assumes SQLite's default BINARY collation for `full_name.asc()`.
- Prices are exact `real`s. Float rounding, `parseFloat`, `String(number)`, `toLocaleString` and `:.2f` formatting are not modelled. `Exporter.EmployeesToRows` writes the cost of a non-participant as 0.0, whereas the source writes the integer 0.
- DayText.Reformat, Dashboard.PayloadDecodesToChanges: the model accepts only the date part of dayjs's parse pattern, and sends any other grid text as `Invalid Date`. dayjs's pattern also matches text with a time of day (`2024-01-05 10:30`), a trailing `T`, or extra digits read as an hour (`202412345`); dayjs reads such text and sends the resolved day, which the model does not. Text dayjs hands to the browser's native `Date` parser (month names, say) is also sent as `Invalid Date` here, whereas its result in the browser depends on the browser. Day-of-week, time zones and clock time are not modelled.
- Dates on the server are `Date(year, month, day)` with years 1–9999, as Python's `date`. A date picker value is a `Date` too, and one outside that range stands for an invalid date.
- Client concurrency: overlapping fetches, the stale closure of `fetchEmployees`, the duplicate effect refetch (`Dashboard.jsx:98-100` and `264-268`) and the DataGrid's revert on a failed edit. Every handler runs to completion with the outcomes of its calls given.
- Dashboard.Fetch: the dashboard shows loading only while the GET is in flight. The model gives only the settled state, with loading off.
- Client UI: `downloadFile` (object URLs, the DOM link), `handleCredentialsUpdate` (alert and logout), dialog and draft field setters, the log drawer, `LoginForm.jsx`, `App.jsx` and `LogViewer.jsx`.
- `Api`: axios itself and local storage are not modelled. The interceptor takes the stored token as a parameter.
- The endpoints `GET /settings`, `POST /employees` and `GET /logs` (`backend/app/main.py:64-71`, `101-107`, `235-237`) only pass their call through. They are covered by `Crud.EnsureSettings`, `Crud.CreateEmployee` and `Logs.Add`/`Logs.List`. `POST /auth/login` belongs to authentication. The `updated_at` timestamps of the settings row are not modelled.

=== FILE: api.dfy ===
/** The client's HTTP set-up: which backend address requests go to, and
    the bearer header every request carries once a token is stored. */
module Api {
  import opened Options

  /** The page address the client was loaded from (`window.location`). */
  datatype Location = Location(protocol: string, hostname: string, port: string)

  /** The backend when the client runs outside a browser or on the
      development server. */
  const LocalBackend: string := "http://localhost:8000"

  /** The relative prefix a reverse proxy forwards to the backend. */
  const ProxyPrefix: string := "/api"

  const DevServerPort: string := "5173"

  /** Ports on which the client is served behind the proxy. */
  const ProxiedPorts: set<string> := {"3080", "443", "80"}

  const BackendPort: string := "8000"

  /** The address a page on `loc` uses when no address is configured;
      `None` stands for "no window" (rendering outside a browser). */
  function ResolveDefaultBaseUrl(window: Option<Location>): (url: string)
    ensures window.None? ==> url == LocalBackend
    ensures window.Some? && window.value.port == DevServerPort ==> url == LocalBackend
    ensures window.Some? && window.value.port != DevServerPort ==>
      (url == ProxyPrefix <==>
         window.value.port == "" || window.value.protocol == "https:" || window.value.port in ProxiedPorts)
    ensures window.Some? && window.value.port != DevServerPort &&
            !(window.value.port == "" || window.value.protocol == "https:" || window.value.port in ProxiedPorts) ==>
      url == window.value.protocol + "//" + window.value.hostname + ":" + BackendPort
  {
    match window
    case None => LocalBackend
    case Some(loc) =>
      if loc.port == DevServerPort then LocalBackend
      else if loc.port == "" || loc.protocol == "https:" || loc.port in ProxiedPorts then ProxyPrefix
      else
        var direct := loc.protocol + "//" + loc.hostname + ":" + BackendPort;
        assert |direct| >= 7;
        direct
  }

  /** Whether an address names the backend's port 8000: it ends in `:8000`. */
  predicate OnBackendPort(url: string) {
    |url| >= 5 && url[|url| - 5..] == ":" + BackendPort
  }

  /** Every absolute address the client resolves names the backend port;
      the only other answer is the proxy prefix. */
  lemma ResolvedAddressReachesBackend(window: Option<Location>)
    ensures var url := ResolveDefaultBaseUrl(window);
      url == ProxyPrefix || OnBackendPort(url)
  {
    var url := ResolveDefaultBaseUrl(window);
    if url == LocalBackend {
      assert LocalBackend[|LocalBackend| - 5..] == ":8000";
    } else if url != ProxyPrefix {
      var loc := window.value;
      var head := loc.protocol + "//" + loc.hostname;
      assert url == head + ":8000";
      assert url[|url| - 5..] == ":8000";
    }
  }

  /** The configured address (`VITE_API_URL`) wins when it is a non-empty
      string; otherwise the resolved default is used. */
  function BaseUrl(configured: Option<string>, window: Option<Location>): (url: string)
    ensures configured.Some? && configured.value != "" ==> url == configured.value
    ensures configured.None? || configured.value == "" ==> url == ResolveDefaultBaseUrl(window)
  {
    if configured.Some? && configured.value != "" then configured.value
    else ResolveDefaultBaseUrl(window)
  }

  /** The part of an outgoing request the interceptor touches. */
  datatype RequestConfig = RequestConfig(url: string, headers: map<string, string>)

  const AuthorizationHeader: string := "Authorization"
  const BearerPrefix: string := "Bearer "

  /** The header value that carries a token. */
  function BearerValue(token: string): (v: string)
    ensures |v| == |BearerPrefix| + |token|
    ensures v[..|BearerPrefix|] == BearerPrefix && v[|BearerPrefix|..] == token
  {
    BearerPrefix + token
  }

  /** The token a header value carries, when it carries one. */
  function TokenOf(value: string): (r: Option<string>)
    ensures r.Some? <==> |value| >= |BearerPrefix| && value[..|BearerPrefix|] == BearerPrefix
    ensures r.Some? ==> BearerValue(r.value) == value
  {
    if |value| >= |BearerPrefix| && value[..|BearerPrefix|] == BearerPrefix then
      assert BearerPrefix + value[|BearerPrefix|..] == value;
      Some(value[|BearerPrefix|..])
    else None
  }

  /** The request interceptor: with a stored, non-empty token the request
      gets `Authorization: Bearer <token>`; otherwise it goes out as it was.
      `stored` is what local storage holds under `token` (`None` for null). */
  function Intercept(config: RequestConfig, stored: Option<string>): (r: RequestConfig)
    ensures r.url == config.url
    ensures stored.None? || stored.value == "" ==> r == config
    ensures stored.Some? && stored.value != "" ==>
      && AuthorizationHeader in r.headers
      && TokenOf(r.headers[AuthorizationHeader]) == Some(stored.value)
      && forall h :: h in config.headers && h != AuthorizationHeader ==> h in r.headers && r.headers[h] == config.headers[h]
    ensures r.headers.Keys == config.headers.Keys + (if stored.Some? && stored.value != "" then {AuthorizationHeader} else {})
  {
    if stored.Some? && stored.value != "" then
      var v := BearerValue(stored.value);
      assert TokenOf(v) == Some(stored.value);
      config.(headers := config.headers[AuthorizationHeader := v])
    else config
  }

  /** Intercepting twice with the same stored token is intercepting once:
      a retried request does not accumulate headers. */
  lemma InterceptIdempotent(config: RequestConfig, stored: Option<string>)
    ensures Intercept(Intercept(config, stored), stored) == Intercept(config, stored)
  {
  }
}

=== FILE: crud.dfy ===
/** The backend's data-access layer: the attendance table, the single
    settings row and the admin user, and the operations on them. Each
    operation is one atomic transition of the store. */
module Crud {
  import opened Options
  import opened Schemas
  import Dates
  import Text

  /** The price `ensure_settings` stores when no settings row exists. */
  const DefaultLunchPrice: real := 150.0

  datatype User = User(username: string, passwordHash: string)

  /** The database: attendance rows keyed by their primary key, the price of
      the settings row (`None` while no row exists), the user, and the next
      key the database will hand out. */
  datatype Db = Db(employees: map<int, Employee>, settings: Option<real>, user: User, nextId: int)

  /** The primary key is the record's own id, keys already issued lie below
      `nextId`, and every stored date is a real calendar date. */
  predicate Valid(db: Db) {
    1 <= db.nextId
    && forall k :: k in db.employees ==>
      db.employees[k].id == k && 1 <= k < db.nextId && Dates.Valid(db.employees[k].date)
  }

  /** Errors the layer raises (`ValueError("Employee not found")`). */
  datatype Outcome<T> = Done(value: T) | NotFound

  /** `ensure_settings`: the settings row's price, creating the row with the
      default price first when there is none. */
  function EnsureSettings(db: Db): (r: (Db, real))
    ensures db.settings.Some? ==> r.0 == db && r.1 == db.settings.value
    ensures db.settings.None? ==> r.1 == DefaultLunchPrice && r.0 == db.(settings := Some(DefaultLunchPrice))
    ensures r.0.settings == Some(r.1)
  {
    if db.settings.Some? then (db, db.settings.value)
    else (db.(settings := Some(DefaultLunchPrice)), DefaultLunchPrice)
  }

  /** A second `ensure_settings` finds the row the first one made. */
  lemma EnsureSettingsIdempotent(db: Db)
    ensures EnsureSettings(EnsureSettings(db).0) == EnsureSettings(db)
  {
  }

  /** The inclusive date filter; a missing bound does not restrict. */
  predicate InRange(d: Dates.Date, start: Option<Dates.Date>, end: Option<Dates.Date>) {
    (start.None? || Dates.Le(start.value, d)) && (end.None? || Dates.Le(d, end.value))
  }

  /** The listing order: later dates first, then names in ascending order. */
  predicate Before(a: Employee, b: Employee) {
    (a.date != b.date && Dates.Le(b.date, a.date))
    || (a.date == b.date && Text.StrLe(a.fullName, b.fullName))
  }

  lemma BeforeTotal(a: Employee, b: Employee)
    ensures Before(a, b) || Before(b, a)
  {
    Dates.LeTotalOrder(a.date, b.date, b.date);
    Text.StrLeTotal(a.fullName, b.fullName);
  }

  lemma BeforeTransitive(a: Employee, b: Employee, c: Employee)
    requires Before(a, b) && Before(b, c)
    ensures Before(a, c)
  {
    Dates.LeTotalOrder(c.date, b.date, a.date);
    Dates.LeTotalOrder(a.date, b.date, c.date);
    if a.date == b.date && b.date == c.date {
      Text.StrLeTransitive(a.fullName, b.fullName, c.fullName);
    }
  }

  predicate Sorted(s: seq<Employee>) {
    forall i, j :: 0 <= i < j < |s| ==> Before(s[i], s[j])
  }

  predicate DistinctIds(s: seq<Employee>) {
    forall i, j :: 0 <= i < j < |s| ==> s[i].id != s[j].id
  }

  /** Inserts `e` into a sorted list after every entry that goes before it. */
  function Insert(s: seq<Employee>, e: Employee): (r: seq<Employee>)
    ensures |r| == |s| + 1
    ensures forall x :: x in r <==> x in s || x == e
    ensures Sorted(s) ==> Sorted(r)
    ensures DistinctIds(s) && (forall x :: x in s ==> x.id != e.id) ==> DistinctIds(r)
  {
    if s == [] then [e]
    else if Before(e, s[0]) then
      InsertFirst(s, e);
      [e] + s
    else
      var rest := Insert(s[1..], e);
      InsertAfterHead(s, e, rest);
      [s[0]] + rest
  }

  /** A list stays sorted when an entry that goes before all of it is put
      in front. */
  lemma ConsSorted(x: Employee, s: seq<Employee>)
    requires Sorted(s) && forall y :: y in s ==> Before(x, y)
    ensures Sorted([x] + s)
  {
    forall i, j | 0 <= i < j < |[x] + s| ensures Before(([x] + s)[i], ([x] + s)[j]) {
      if i == 0 {
        assert ([x] + s)[j] == s[j - 1];
        assert s[j - 1] in s;
      } else {
        assert ([x] + s)[i] == s[i - 1] && ([x] + s)[j] == s[j - 1];
      }
    }
  }

  /** Ids stay distinct when an entry with a fresh id is put in front. */
  lemma ConsDistinct(x: Employee, s: seq<Employee>)
    requires DistinctIds(s) && forall y :: y in s ==> y.id != x.id
    ensures DistinctIds([x] + s)
  {
    forall i, j | 0 <= i < j < |[x] + s| ensures ([x] + s)[i].id != ([x] + s)[j].id {
      if i == 0 {
        assert ([x] + s)[j] == s[j - 1];
        assert s[j - 1] in s;
      } else {
        assert ([x] + s)[i] == s[i - 1] && ([x] + s)[j] == s[j - 1];
      }
    }
  }

  lemma InsertFirst(s: seq<Employee>, e: Employee)
    requires s != [] && Before(e, s[0])
    ensures Sorted(s) ==> Sorted([e] + s)
    ensures DistinctIds(s) && (forall x :: x in s ==> x.id != e.id) ==> DistinctIds([e] + s)
  {
    if Sorted(s) {
      forall y | y in s ensures Before(e, y) {
        var j :| 0 <= j < |s| && s[j] == y;
        if j > 0 { BeforeTransitive(e, s[0], s[j]); }
      }
      ConsSorted(e, s);
    }
    if DistinctIds(s) && (forall x :: x in s ==> x.id != e.id) {
      ConsDistinct(e, s);
    }
  }

  lemma InsertAfterHead(s: seq<Employee>, e: Employee, rest: seq<Employee>)
    requires s != [] && !Before(e, s[0])
    requires forall x :: x in rest <==> x in s[1..] || x == e
    requires Sorted(s[1..]) ==> Sorted(rest)
    requires DistinctIds(s[1..]) && (forall x :: x in s[1..] ==> x.id != e.id) ==> DistinctIds(rest)
    ensures Sorted(s) ==> Sorted([s[0]] + rest)
    ensures DistinctIds(s) && (forall x :: x in s ==> x.id != e.id) ==> DistinctIds([s[0]] + rest)
  {
    if Sorted(s) {
      BeforeTotal(e, s[0]);
      forall x | x in rest ensures Before(s[0], x) {
        if x != e {
          var j :| 0 <= j < |s[1..]| && s[1..][j] == x;
          assert s[j + 1] == x;
        }
      }
      assert Sorted(s[1..]) by {
        forall i, j | 0 <= i < j < |s[1..]| ensures Before(s[1..][i], s[1..][j]) {
          assert s[1..][i] == s[i + 1] && s[1..][j] == s[j + 1];
        }
      }
      ConsSorted(s[0], rest);
    }
    if DistinctIds(s) && (forall x :: x in s ==> x.id != e.id) {
      forall x | x in rest ensures s[0].id != x.id {
        if x != e {
          var j :| 0 <= j < |s[1..]| && s[1..][j] == x;
          assert s[j + 1] == x;
        } else {
          assert s[0] in s;
        }
      }
      assert DistinctIds(s[1..]) by {
        forall i, j | 0 <= i < j < |s[1..]| ensures s[1..][i].id != s[1..][j].id {
          assert s[1..][i] == s[i + 1] && s[1..][j] == s[j + 1];
        }
      }
      assert forall x :: x in s[1..] ==> x in s;
      ConsDistinct(s[0], rest);
    }
  }

  /** `list_employees`: the records whose date lies in the inclusive range,
      each once, ordered by date descending and then name ascending, with
      the current price (the settings row is created if missing). Rows that
      tie on both keys come out in no particular order, as in SQL. The scan
      visits keys in ascending order, as the table's rowid order does. */
  method ListEmployees(db: Db, start: Option<Dates.Date>, end: Option<Dates.Date>)
    returns (db': Db, employees: seq<Employee>, price: real)
    requires Valid(db)
    ensures (db', price) == EnsureSettings(db)
    ensures forall e :: e in employees <==>
      e.id in db.employees && db.employees[e.id] == e && InRange(e.date, start, end)
    ensures forall k :: k in db.employees && InRange(db.employees[k].date, start, end) ==>
      db.employees[k] in employees
    ensures Sorted(employees)
    ensures DistinctIds(employees)
  {
    db', price := EnsureSettings(db).0, EnsureSettings(db).1;
    employees := [];
    var i := 1;
    while i < db.nextId
      invariant 1 <= i <= db.nextId
      invariant forall e :: e in employees <==>
        e.id in db.employees && db.employees[e.id] == e && e.id < i && InRange(e.date, start, end)
      invariant Sorted(employees)
      invariant DistinctIds(employees)
    {
      if i in db.employees && InRange(db.employees[i].date, start, end) {
        employees := Insert(employees, db.employees[i]);
      }
      i := i + 1;
    }
  }

  /** `s` is the listing of the range: exactly the stored records dated in
      it, each once, ordered by date descending and then name ascending. */
  ghost predicate IsListing(db: Db, start: Option<Dates.Date>, end: Option<Dates.Date>, s: seq<Employee>) {
    && (forall e :: e in s <==> e.id in db.employees && db.employees[e.id] == e && InRange(e.date, start, end))
    && Sorted(s)
    && DistinctIds(s)
  }

  /** The number of participating entries. */
  function Participants(s: seq<Employee>): nat {
    if s == [] then 0 else (if s[0].status then 1 else 0) + Participants(s[1..])
  }

  /** The ids of the participating entries of a list. */
  function ParticipantIdsOf(s: seq<Employee>): set<int> {
    if s == [] then {} else (if s[0].status then {s[0].id} else {}) + ParticipantIdsOf(s[1..])
  }

  lemma {:induction false} IdNotAmong(s: seq<Employee>, id: int)
    requires forall i :: 0 <= i < |s| ==> s[i].id != id
    ensures id !in ParticipantIdsOf(s)
  {
    if s != [] {
      IdNotAmong(s[1..], id);
    }
  }

  /** In a list without repeated ids, the head count is the number of
      distinct participating ids. */
  lemma {:induction false} ParticipantsCountsIds(s: seq<Employee>)
    requires DistinctIds(s)
    ensures Participants(s) == |ParticipantIdsOf(s)|
  {
    if s != [] {
      var t := s[1..];
      assert DistinctIds(t);
      ParticipantsCountsIds(t);
      IdNotAmong(t, s[0].id);
    }
  }

  lemma {:induction false} ParticipantIdsWithin(s: seq<Employee>, ids: set<int>)
    requires forall i :: 0 <= i < |s| && s[i].status ==> s[i].id in ids
    ensures ParticipantIdsOf(s) <= ids
  {
    if s != [] {
      ParticipantIdsWithin(s[1..], ids);
    }
  }

  lemma {:induction false} ParticipantIdIncluded(s: seq<Employee>, e: Employee)
    requires e in s && e.status
    ensures e.id in ParticipantIdsOf(s)
  {
    if s[0] != e {
      ParticipantIdIncluded(s[1..], e);
    }
  }

  /** The keys of the participating records of the range: the rows
      `aggregate_cost` counts. */
  function ParticipantIds(db: Db, start: Option<Dates.Date>, end: Option<Dates.Date>): set<int> {
    set k | k in db.employees && db.employees[k].status && InRange(db.employees[k].date, start, end)
  }

  /** `aggregate_cost`: how many records in the range participate, and that
      count times the current price. */
  function AggregateCost(db: Db, start: Option<Dates.Date>, end: Option<Dates.Date>): (r: (Db, nat, real))
    ensures r.0 == EnsureSettings(db).0
    ensures r.1 == |ParticipantIds(db, start, end)|
    ensures r.2 == r.1 as real * EnsureSettings(db).1
  {
    var (db', price) := EnsureSettings(db);
    var count := |ParticipantIds(db, start, end)|;
    (db', count, count as real * price)
  }

  /** The list endpoint's head count over the listed records agrees with
      `aggregate_cost` for the same range. */
  lemma ListedParticipantsMatchAggregate(db: Db, start: Option<Dates.Date>, end: Option<Dates.Date>, listed: seq<Employee>)
    requires Valid(db)
    requires forall e :: e in listed <==>
      e.id in db.employees && db.employees[e.id] == e && InRange(e.date, start, end)
    requires DistinctIds(listed)
    ensures Participants(listed) == AggregateCost(db, start, end).1
  {
    var ids := ParticipantIds(db, start, end);
    ParticipantsCountsIds(listed);
    ParticipantIdsWithin(listed, ids);
    forall k | k in ids
      ensures k in ParticipantIdsOf(listed)
    {
      ParticipantIdIncluded(listed, db.employees[k]);
    }
    assert ParticipantIdsOf(listed) == ids;
  }

  /** `create_employee`: store a new record under a fresh key. */
  function CreateEmployee(db: Db, p: EmployeeCreate): (r: (Db, Employee))
    requires Valid(db) && ValidEmployeeCreate(p)
    ensures r.1.id !in db.employees
    ensures r.1.id == db.nextId && r.0.nextId == db.nextId + 1
    ensures r.1 == Employee(r.1.id, p.fullName, p.status, p.date, p.note)
    ensures r.0.employees == db.employees[r.1.id := r.1]
    ensures |r.0.employees| == |db.employees| + 1
    ensures r.0.settings == db.settings && r.0.user == db.user
    ensures Valid(r.0)
  {
    var id := db.nextId;
    assert id !in db.employees;
    var e := Employee(id, p.fullName, p.status, p.date, p.note);
    (db.(employees := db.employees[id := e], nextId := id + 1), e)
  }

  /** Overwrites the fields the payload sets; the id never changes. */
  function ApplyUpdate(e: Employee, p: EmployeeUpdate): (r: Employee)
    ensures r.id == e.id
    ensures r.fullName == (if p.fullName.Some? then p.fullName.value else e.fullName)
    ensures r.status == (if p.status.Some? then p.status.value else e.status)
    ensures r.date == (if p.date.Some? then p.date.value else e.date)
    ensures r.note == (if p.note.Some? then p.note.value else e.note)
  {
    Employee(e.id, p.fullName.GetOr(e.fullName), p.status.GetOr(e.status),
             p.date.GetOr(e.date), p.note.GetOr(e.note))
  }

  /** Applying the same partial update twice is applying it once. */
  lemma ApplyUpdateIdempotent(e: Employee, p: EmployeeUpdate)
    ensures ApplyUpdate(ApplyUpdate(e, p), p) == ApplyUpdate(e, p)
  {
  }

  /** `update_employee`: an unknown id raises; otherwise only the fields the
      payload sets change, in that record only. */
  function UpdateEmployee(db: Db, id: int, p: EmployeeUpdate): (r: Outcome<(Db, Employee)>)
    requires Valid(db) && ValidEmployeeUpdate(p)
    ensures id !in db.employees <==> r.NotFound?
    ensures r.Done? ==> r.value.1 == ApplyUpdate(db.employees[id], p)
    ensures r.Done? ==> r.value.0 == db.(employees := db.employees[id := r.value.1])
    ensures r.Done? ==> r.value.0.employees.Keys == db.employees.Keys
    ensures r.Done? ==> forall k :: k in db.employees && k != id ==> r.value.0.employees[k] == db.employees[k]
    ensures r.Done? ==> Valid(r.value.0)
  {
    if id !in db.employees then NotFound
    else
      var e := ApplyUpdate(db.employees[id], p);
      Done((db.(employees := db.employees[id := e]), e))
  }

  /** `delete_employee`: an unknown id raises; otherwise exactly that record
      goes. */
  function DeleteEmployee(db: Db, id: int): (r: Outcome<Db>)
    requires Valid(db)
    ensures id !in db.employees <==> r.NotFound?
    ensures r.Done? ==> r.value.employees.Keys == db.employees.Keys - {id}
    ensures r.Done? ==> forall k :: k in r.value.employees ==> r.value.employees[k] == db.employees[k]
    ensures r.Done? ==> |r.value.employees| == |db.employees| - 1
    ensures r.Done? ==> r.value.settings == db.settings && r.value.user == db.user
    ensures r.Done? ==> Valid(r.value)
  {
    if id !in db.employees then NotFound
    else Done(db.(employees := db.employees - {id}))
  }

  /** Python truthiness of an optional string: present and non-empty. */
  predicate Truthy(s: Option<string>) {
    s.Some? && s.value != ""
  }

  /** `update_credentials`: a non-empty user name replaces the name, a
      non-empty password replaces the hash; `hash` stands for bcrypt. */
  function UpdateCredentials(user: User, p: UserUpdate, hash: string -> string): (r: User)
    ensures Truthy(p.username) ==> r.username == p.username.value
    ensures !Truthy(p.username) ==> r.username == user.username
    ensures Truthy(p.password) ==> r.passwordHash == hash(p.password.value)
    ensures !Truthy(p.password) ==> r.passwordHash == user.passwordHash
  {
    var u := if Truthy(p.username) then user.(username := p.username.value) else user;
    if Truthy(p.password) then u.(passwordHash := hash(p.password.value)) else u
  }

  /** `authenticate_user` for the single stored user: the name must match
      and `verify` (bcrypt's check) must accept the password against the
      stored hash. */
  predicate SignsIn(user: User, name: string, password: string, verify: (string, string) -> bool) {
    user.username == name && verify(password, user.passwordHash)
  }

  /** New credentials take effect: the new name with the new password signs
      in, a name change alone keeps the old password working, a password
      change alone keeps the old name, given a hash that `verify` accepts
      for its own password. Sending the same update again, with a freshly
      salted hash `rehash`, keeps the name and the ability to sign in with
      that password; without a password it changes nothing at all. */
  lemma CredentialsTakeEffect(user: User, p: UserUpdate, hash: string -> string, rehash: string -> string,
                              verify: (string, string) -> bool)
    requires Truthy(p.password) ==> verify(p.password.value, hash(p.password.value))
    requires Truthy(p.password) ==> verify(p.password.value, rehash(p.password.value))
    ensures var r := UpdateCredentials(user, p, hash);
      && (Truthy(p.username) && Truthy(p.password) ==> SignsIn(r, p.username.value, p.password.value, verify))
      && (Truthy(p.username) && !Truthy(p.password) ==>
            forall pw :: SignsIn(r, p.username.value, pw, verify) <==> SignsIn(user, user.username, pw, verify))
      && (!Truthy(p.username) && Truthy(p.password) ==> SignsIn(r, user.username, p.password.value, verify))
    ensures var r := UpdateCredentials(user, p, hash);
      var again := UpdateCredentials(r, p, rehash);
      && again.username == r.username
      && (Truthy(p.password) ==> SignsIn(again, r.username, p.password.value, verify))
      && (!Truthy(p.password) ==> again == r)
  {
  }

  /** `update_lunch_price`: the settings row (created if missing) takes the
      given price; nothing else changes. */
  function UpdateLunchPrice(db: Db, price: real): (r: (Db, real))
    ensures r.1 == price && r.0.settings == Some(price)
    ensures r.0.employees == db.employees && r.0.user == db.user && r.0.nextId == db.nextId
    ensures EnsureSettings(r.0) == (r.0, price)
  {
    var (db', _) := EnsureSettings(db);
    (db'.(settings := Some(price)), price)
  }
}

=== FILE: dashboard.dfy ===
/** The dashboard's client state and its handlers. Every handler is one
    transition: it takes the current state and the outcome of each remote
    call it makes (`Ok(data)` or `Err`), and yields the next state together
    with the requests it sent, in order. */
module Dashboard {
  import opened Options
  import Dates
  import DayText
  import Schemas
  import Handlers

  // ---------------------------------------------------------------------
  // Values as the client holds them

  /** A status cell as the data grid hands it back: normally a boolean, but
      an edited select cell can deliver a string or a number. */
  datatype StatusValue = BoolStatus(b: bool) | TextStatus(text: string) | NumberStatus(n: real) | NullStatus

  /** A grid row: the date is the text the grid shows, `YYYY-MM-DD` as
      fetched but free text once edited; the note may be null. */
  datatype Row = Row(id: int, fullName: string, status: StatusValue, date: string, note: Option<string>)

  /** One employee in the body of `GET /employees`, with the date as the
      JSON text it arrives as. */
  datatype ListedEmployee = ListedEmployee(id: int, fullName: string, status: bool, date: string, note: Option<string>)

  /** The body of `GET /employees` as the client reads it. */
  datatype Listing = Listing(employees: seq<ListedEmployee>, lunchPrice: real, totalParticipants: int, totalCost: real)

  datatype Totals = Totals(participants: int, cost: real)

  /** The price field: either showing the stored price, or holding what
      the user typed. */
  datatype PriceText = Shown(value: real) | Typed(text: string)

  /** The add-dialog draft. Its date, like the range bounds below, is a
      date picker's value: a `Dates.Date` that is not a calendar day of
      years 1–9999 stands for the invalid date a picker holds while its text
      is only partly typed. */
  datatype Draft = Draft(fullName: string, status: bool, date: Dates.Date, note: string)

  datatype State = State(
    employees: seq<Row>,
    loading: bool,
    price: real,
    editedPrice: PriceText,
    totals: Totals,
    startDate: Option<Dates.Date>,
    endDate: Option<Dates.Date>,
    addDialogOpen: bool,
    draft: Draft,
    importing: bool)

  /** A chosen upload; only its presence matters here. */
  datatype FileRef = FileRef(name: string)

  type Query = map<string, Schemas.Json>

  datatype Request =
    | GetEmployees(query: Query)
    | PostEmployee(body: Schemas.JsonObject)
    | PutEmployee(id: int, body: Schemas.JsonObject)
    | DeleteEmployee(id: int)
    | PostImport(file: FileRef)
    | GetExport(kind: string, query: Query, filename: string)
    | PutSettings(body: Schemas.JsonObject)

  /** The state after a handler, and the requests it sent in order. */
  datatype Step = Step(state: State, sent: seq<Request>)

  /** A `fetchEmployees` argument: left out (`undefined`) or given, where a
      given bound may still be null. */
  datatype RangeArg = Undefined | Given(bound: Option<Dates.Date>)

  const InitialPrice: real := 150.0

  /** No request is in flight. */
  predicate Idle(s: State) {
    !s.loading && !s.importing
  }

  /** A fresh draft: empty name, taking part, dated today, empty note. */
  function DefaultDraft(today: Dates.Date): (d: Draft)
    ensures d.fullName == "" && d.status && d.date == today && d.note == ""
  {
    Draft("", true, today, "")
  }

  /** The state the dashboard mounts with. */
  function Initial(today: Dates.Date): (s: State)
    ensures Idle(s)
    ensures s.employees == [] && s.price == InitialPrice && s.editedPrice == Shown(InitialPrice)
    ensures s.totals == Totals(0, 0.0) && s.startDate.None? && s.endDate.None?
    ensures !s.addDialogOpen && s.draft == DefaultDraft(today)
  {
    State([], false, InitialPrice, Shown(InitialPrice), Totals(0, 0.0), None, None, false, DefaultDraft(today), false)
  }

  // ---------------------------------------------------------------------
  // Fetching the list

  /** A bound that was left out falls back to the selected one. */
  function Effective(arg: RangeArg, selected: Option<Dates.Date>): (d: Option<Dates.Date>)
    ensures arg.Undefined? ==> d == selected
    ensures arg.Given? ==> d == arg.bound
  {
    match arg
    case Undefined => selected
    case Given(bound) => bound
  }

  /** What the server reads from a bound the client sent: the day itself,
      or nothing (a 422 rejection) for an invalid picker value. */
  function ServerBound(d: Dates.Date): (r: Option<Dates.Date>)
    ensures r.Some? <==> Dates.Valid(d)
    ensures r.Some? ==> r.value == d
  {
    if Dates.Valid(d) then Some(d) else None
  }

  /** The range query: `start_date` and `end_date` each present exactly when
      that bound is set, as the picker's formatted text, which the server
      reads back as the picked day, or rejects when the picker held an
      invalid date. */
  function RangeQuery(start: Option<Dates.Date>, end: Option<Dates.Date>): (q: Query)
    ensures q.Keys == (if start.Some? then {"start_date"} else {}) + (if end.Some? then {"end_date"} else {})
    ensures start.Some? ==> Schemas.DecodeDate(q["start_date"]) == ServerBound(start.value)
    ensures end.Some? ==> Schemas.DecodeDate(q["end_date"]) == ServerBound(end.value)
  {
    var q0: Query := map[];
    var q1 := if start.Some? then q0["start_date" := Schemas.JStr(DayText.PickerText(start.value))] else q0;
    if end.Some? then q1["end_date" := Schemas.JStr(DayText.PickerText(end.value))] else q1
  }

  /** A listed employee as a grid row. */
  function RowOf(e: ListedEmployee): (r: Row)
    ensures r.id == e.id && r.fullName == e.fullName && r.status == BoolStatus(e.status)
    ensures r.date == DayText.Reformat(e.date) && r.note == e.note
  {
    Row(e.id, e.fullName, BoolStatus(e.status), DayText.Reformat(e.date), e.note)
  }

  function RowsOf(es: seq<ListedEmployee>): (rows: seq<Row>)
    ensures |rows| == |es|
    ensures forall i :: 0 <= i < |es| ==> rows[i] == RowOf(es[i])
  {
    seq(|es|, i requires 0 <= i < |es| => RowOf(es[i]))
  }

  /** `fetchEmployees(rangeStart, rangeEnd)`: one `GET /employees` for the
      effective range; success replaces the list, the totals, the price and
      the price field together, failure keeps all four; either way the
      dashboard stops loading. */
  function Fetch(s: State, rangeStart: RangeArg, rangeEnd: RangeArg, outcome: Remote<Listing>): (r: Step)
    ensures r.sent == [GetEmployees(RangeQuery(Effective(rangeStart, s.startDate), Effective(rangeEnd, s.endDate)))]
    ensures !r.state.loading && r.state.importing == s.importing
    ensures outcome.Ok? ==>
      && r.state.employees == RowsOf(outcome.data.employees)
      && r.state.totals == Totals(outcome.data.totalParticipants, outcome.data.totalCost)
      && r.state.price == outcome.data.lunchPrice
      && r.state.editedPrice == Shown(outcome.data.lunchPrice)
    ensures outcome.Err? ==> r.state == s.(loading := false)
    ensures r.state.startDate == s.startDate && r.state.endDate == s.endDate
    ensures r.state.draft == s.draft && r.state.addDialogOpen == s.addDialogOpen
  {
    var query := RangeQuery(Effective(rangeStart, s.startDate), Effective(rangeEnd, s.endDate));
    var next := match outcome
      case Ok(data) =>
        s.(employees := RowsOf(data.employees),
           totals := Totals(data.totalParticipants, data.totalCost),
           price := data.lunchPrice,
           editedPrice := Shown(data.lunchPrice))
      case Err => s;
    Step(next.(loading := false), [GetEmployees(query)])
  }

  /** `fetchEmployees(startDate, endDate)`: a fetch for the selected range. */
  function Refetch(s: State, outcome: Remote<Listing>): (r: Step)
    ensures r == Fetch(s, Given(s.startDate), Given(s.endDate), outcome)
  {
    Fetch(s, Given(s.startDate), Given(s.endDate), outcome)
  }

  /** A successful fetch decides the list on its own: whatever an earlier
      successful fetch stored, the later one overwrites all of it. */
  lemma {:induction false} LatestFetchWins(s: State, a1: RangeArg, b1: RangeArg, a2: RangeArg, b2: RangeArg,
                                          first: Listing, second: Listing)
    ensures Fetch(Fetch(s, a1, b1, Ok(first)).state, a2, b2, Ok(second)).state == Fetch(s, a2, b2, Ok(second)).state
  {
    var s1 := Fetch(s, a1, b1, Ok(first)).state;
    assert s1.startDate == s.startDate && s1.endDate == s.endDate;
    assert s1 == s.(employees := s1.employees, totals := s1.totals, price := s1.price,
                    editedPrice := s1.editedPrice, loading := false);
  }

  /** The rows the client shows carry the server's records: the id, name and
      status as sent, and the date as dayjs reads its ISO text, which is the
      record's own day and text from the year 100 on. */
  lemma {:induction false} FetchedRowsMatchServer(s: State, resp: Schemas.EmployeeListResponse)
    requires forall i :: 0 <= i < |resp.employees| ==> Dates.Valid(resp.employees[i].date)
    ensures var rows := Refetch(s, Ok(ListingOf(resp))).state.employees;
      && |rows| == |resp.employees|
      && forall i :: 0 <= i < |rows| ==>
           && rows[i].id == resp.employees[i].id
           && rows[i].fullName == resp.employees[i].fullName
           && rows[i].status == BoolStatus(resp.employees[i].status)
           && Dates.ParseIso(rows[i].date) == Some(DayText.ReadIso(resp.employees[i].date))
           && (resp.employees[i].date.year >= 100 ==> rows[i].date == Dates.FormatIso(resp.employees[i].date))
  {
    var rows := Refetch(s, Ok(ListingOf(resp))).state.employees;
    forall i | 0 <= i < |rows|
      ensures Dates.ParseIso(rows[i].date) == Some(DayText.ReadIso(resp.employees[i].date))
      ensures resp.employees[i].date.year >= 100 ==> rows[i].date == Dates.FormatIso(resp.employees[i].date)
    {
      var d := resp.employees[i].date;
      Dates.FormatThenParse(d);
      DayText.IsoTextRead(Dates.FormatIso(d));
      Dates.FormatThenParse(DayText.ReadIso(d));
    }
  }

  /** The JSON the server sends for a list response, dates as ISO text. */
  function ListingOf(resp: Schemas.EmployeeListResponse): (l: Listing)
    requires forall i :: 0 <= i < |resp.employees| ==> Dates.Valid(resp.employees[i].date)
    ensures |l.employees| == |resp.employees|
    ensures forall i :: 0 <= i < |resp.employees| ==>
      l.employees[i].date == Dates.FormatIso(resp.employees[i].date)
      && l.employees[i].id == resp.employees[i].id
      && l.employees[i].fullName == resp.employees[i].fullName
      && l.employees[i].status == resp.employees[i].status
    ensures l.lunchPrice == resp.lunchPrice
    ensures l.totalParticipants == resp.totalParticipants && l.totalCost == resp.totalCost
  {
    var es := seq(|resp.employees|, i requires 0 <= i < |resp.employees| =>
      var e := resp.employees[i];
      ListedEmployee(e.id, e.fullName, e.status, Dates.FormatIso(e.date), e.note));
    Listing(es, resp.lunchPrice, resp.totalParticipants, resp.totalCost)
  }

  // ---------------------------------------------------------------------
  // Editing a row

  /** `normalizeStatus`: text counts as true only when it is `true` or `1`;
      any other value by JavaScript truthiness. */
  function NormalizeStatus(v: StatusValue): (b: bool)
    ensures v.TextStatus? ==> (b <==> v.text == "true" || v.text == "1")
    ensures v.BoolStatus? ==> b == v.b
    ensures v.NumberStatus? ==> (b <==> v.n != 0.0)
    ensures v.NullStatus? ==> !b
  {
    match v
    case TextStatus(t) => t == "true" || t == "1"
    case BoolStatus(x) => x
    case NumberStatus(n) => n != 0.0
    case NullStatus => false
  }

  /** Normalising is stable: a normalised status normalises to itself, so
      the sent value agrees with what the grid shows after the refetch. */
  lemma NormalizeStatusStable(v: StatusValue)
    ensures NormalizeStatus(BoolStatus(NormalizeStatus(v))) == NormalizeStatus(v)
  {
  }

  function NoteJson(note: Option<string>): (j: Schemas.Json)
    ensures note.Some? ==> j == Schemas.JStr(note.value)
    ensures note.None? ==> j == Schemas.JNull
  {
    if note.Some? then Schemas.JStr(note.value) else Schemas.JNull
  }

  /** The fields compared when a row edit is committed. */
  predicate SameFields(a: Row, b: Row) {
    a.fullName == b.fullName && a.status == b.status && a.date == b.date && a.note == b.note
  }

  /** The body of the row-edit `PUT`: each of `full_name`, `status`,
      `date`, `note` exactly when the edited row's raw value differs from the
      old one (`!==`); the status is compared raw and sent normalised. */
  function BuildPayload(newRow: Row, oldRow: Row): (p: Schemas.JsonObject)
    ensures "full_name" in p <==> newRow.fullName != oldRow.fullName
    ensures "status" in p <==> newRow.status != oldRow.status
    ensures "date" in p <==> newRow.date != oldRow.date
    ensures "note" in p <==> newRow.note != oldRow.note
    ensures p.Keys <= {"full_name", "status", "date", "note"}
    ensures "full_name" in p ==> p["full_name"] == Schemas.JStr(newRow.fullName)
    ensures "status" in p ==> p["status"] == Schemas.JBool(NormalizeStatus(newRow.status))
    ensures "date" in p ==> p["date"] == Schemas.JStr(DayText.Reformat(newRow.date))
    ensures "note" in p ==> p["note"] == NoteJson(newRow.note)
  {
    var p0: Schemas.JsonObject := map[];
    var p1 := if newRow.fullName != oldRow.fullName then p0["full_name" := Schemas.JStr(newRow.fullName)] else p0;
    var p2 := if newRow.status != oldRow.status then p1["status" := Schemas.JBool(NormalizeStatus(newRow.status))] else p1;
    var p3 := if newRow.date != oldRow.date then p2["date" := Schemas.JStr(DayText.Reformat(newRow.date))] else p2;
    if newRow.note != oldRow.note then p3["note" := NoteJson(newRow.note)] else p3
  }

  /** The payload is empty exactly when none of the four fields changed;
      the id never takes part. */
  lemma PayloadEmptyIffUnchanged(newRow: Row, oldRow: Row)
    ensures BuildPayload(newRow, oldRow) == map[] <==> SameFields(newRow, oldRow)
    ensures "id" !in BuildPayload(newRow, oldRow)
  {
    var p := BuildPayload(newRow, oldRow);
    if !SameFields(newRow, oldRow) {
      assert "full_name" in p || "status" in p || "date" in p || "note" in p;
    }
  }

  /** The day the server reads from an edited date cell: the day dayjs
      resolves the text to, when that day has a four-digit year; nothing
      for text dayjs cannot read. */
  function EditedDay(text: string): (r: Option<Dates.Date>)
    ensures r == Dates.ParseIso(DayText.Reformat(text))
    ensures Dates.ParseIso(text).Some? && Dates.ParseIso(text).value.year >= 100 ==> r == Dates.ParseIso(text)
  {
    DayText.ServerReadsReformat(text);
    DayText.IsoTextKept(text);
    match DayText.SplitDayText(text)
    case None => None
    case Some(f) => if DayText.Resolve(f).year <= 9999 then Some(DayText.Resolve(f)) else None
  }

  /** What the server makes of the row-edit body: it validates exactly when
      the date is unchanged or its cell text reads as a day, and then the
      update sets exactly the changed fields, to the edited values, the
      date to the day dayjs resolved the cell text to. */
  lemma PayloadDecodesToChanges(newRow: Row, oldRow: Row)
    ensures var u := Schemas.DecodeEmployeeUpdate(BuildPayload(newRow, oldRow));
      && (u.Some? <==> newRow.date == oldRow.date || EditedDay(newRow.date).Some?)
      && (u.Some? ==>
           && u.value.fullName == (if newRow.fullName != oldRow.fullName then Some(newRow.fullName) else None)
           && u.value.status == (if newRow.status != oldRow.status then Some(NormalizeStatus(newRow.status)) else None)
           && u.value.date == (if newRow.date != oldRow.date then EditedDay(newRow.date) else None)
           && u.value.note == (if newRow.note != oldRow.note then Some(newRow.note) else None))
  {
    var p := BuildPayload(newRow, oldRow);
    if newRow.date != oldRow.date {
      assert p["date"] == Schemas.JStr(DayText.Reformat(newRow.date));
    }
  }

  /** The outcome the grid sees for a committed edit: the edited row, or the
      error that makes it revert. */
  datatype Edit = Edit(step: Step, result: Remote<Row>)

  /** `processRowUpdate`: with nothing changed, no request and the row is
      kept; otherwise one `PUT`, and after success one refetch of the
      selected range; a failed `PUT` is passed on and nothing is refetched. */
  function ProcessRowUpdate(s: State, newRow: Row, oldRow: Row, put: Remote<()>, fetched: Remote<Listing>): (r: Edit)
    ensures BuildPayload(newRow, oldRow) == map[] ==> r == Edit(Step(s, []), Ok(newRow))
    ensures BuildPayload(newRow, oldRow) != map[] && put.Err? ==>
      r == Edit(Step(s, [PutEmployee(newRow.id, BuildPayload(newRow, oldRow))]), Err)
    ensures BuildPayload(newRow, oldRow) != map[] && put.Ok? ==>
      && r.result == Ok(newRow)
      && r.step.sent == [PutEmployee(newRow.id, BuildPayload(newRow, oldRow))] + Refetch(s, fetched).sent
      && r.step.state == Refetch(s, fetched).state
  {
    var payload := BuildPayload(newRow, oldRow);
    if payload == map[] then Edit(Step(s, []), Ok(newRow))
    else if put.Err? then Edit(Step(s, [PutEmployee(newRow.id, payload)]), Err)
    else
      var f := Refetch(s, fetched);
      Edit(Step(f.state, [PutEmployee(newRow.id, payload)] + f.sent), Ok(newRow))
  }

  // ---------------------------------------------------------------------
  // Adding, deleting, importing

  /** The body of the add request: all four fields of the draft, the date
      as its picker's formatted text. */
  function AddPayload(d: Draft): (p: Schemas.JsonObject)
    ensures p.Keys == {"full_name", "status", "date", "note"}
  {
    map["full_name" := Schemas.JStr(d.fullName),
        "status" := Schemas.JBool(d.status),
        "date" := Schemas.JStr(DayText.PickerText(d.date)),
        "note" := Schemas.JStr(d.note)]
  }

  /** The server reads the add body back as exactly the draft, and rejects
      it when the draft's picker held an invalid date. */
  lemma AddPayloadIsDraft(d: Draft)
    ensures Schemas.DecodeEmployeeCreate(AddPayload(d))
            == if Dates.Valid(d.date)
               then Some(Schemas.EmployeeCreate(d.fullName, d.status, d.date, Some(d.note)))
               else None
  {
    if Dates.Valid(d.date) {
      var e := Schemas.EmployeeCreate(d.fullName, d.status, d.date, Some(d.note));
      assert AddPayload(d) == Schemas.EncodeEmployeeCreate(e);
      Schemas.CreateRoundTrip(e);
    } else {
      assert Schemas.DecodeDate(AddPayload(d)["date"]).None?;
    }
  }

  /** `handleAddEmployee`: one `POST` with the draft; on success the dialog
      closes, the draft resets to the defaults for `today`, and the selected
      range is fetched once; on failure nothing changes. */
  function HandleAdd(s: State, posted: Remote<()>, today: Dates.Date, fetched: Remote<Listing>): (r: Step)
    ensures |r.sent| >= 1 && r.sent[0] == PostEmployee(AddPayload(s.draft))
    ensures posted.Err? ==> r == Step(s, [PostEmployee(AddPayload(s.draft))])
    ensures posted.Ok? ==>
      && !r.state.addDialogOpen && r.state.draft == DefaultDraft(today)
      && r.sent[1..] == [GetEmployees(RangeQuery(s.startDate, s.endDate))]
      && (fetched.Err? ==> r.state.employees == s.employees)
      && r.state == Refetch(s.(addDialogOpen := false, draft := DefaultDraft(today)), fetched).state
      && r.state.startDate == s.startDate && r.state.endDate == s.endDate
  {
    var body := AddPayload(s.draft);
    if posted.Err? then Step(s, [PostEmployee(body)])
    else
      var f := Refetch(s.(addDialogOpen := false, draft := DefaultDraft(today)), fetched);
      Step(f.state, [PostEmployee(body)] + f.sent)
  }

  /** `handleDeleteEmployee`: nothing without confirmation; otherwise one
      `DELETE`, and after success one refetch of the selected range. */
  function HandleDelete(s: State, id: int, confirmed: bool, deleted: Remote<()>, fetched: Remote<Listing>): (r: Step)
    ensures !confirmed ==> r == Step(s, [])
    ensures confirmed ==> |r.sent| >= 1 && r.sent[0] == DeleteEmployee(id)
    ensures confirmed && deleted.Err? ==> r == Step(s, [DeleteEmployee(id)])
    ensures confirmed && deleted.Ok? ==> r.sent[1..] == Refetch(s, fetched).sent && r.state == Refetch(s, fetched).state
  {
    if !confirmed then Step(s, [])
    else if deleted.Err? then Step(s, [DeleteEmployee(id)])
    else
      var f := Refetch(s, fetched);
      Step(f.state, [DeleteEmployee(id)] + f.sent)
  }

  /** The moment an upload starts: the import indicator goes on. */
  function ImportBegin(s: State): (r: State)
    ensures r.importing && r == s.(importing := true)
  {
    s.(importing := true)
  }

  /** The end of an upload: a refetch only after success, and the import
      indicator off either way. */
  function ImportEnd(s: State, file: FileRef, uploaded: Remote<()>, fetched: Remote<Listing>): (r: Step)
    ensures !r.state.importing
    ensures uploaded.Err? ==> r == Step(s.(importing := false), [PostImport(file)])
    ensures uploaded.Ok? ==>
      r.sent == [PostImport(file)] + Refetch(s, fetched).sent
      && r.state == Refetch(s, fetched).state.(importing := false)
  {
    if uploaded.Err? then Step(s.(importing := false), [PostImport(file)])
    else
      var f := Refetch(s, fetched);
      Step(f.state.(importing := false), [PostImport(file)] + f.sent)
  }

  /** `handleImport`: no file, no effect; otherwise one upload between
      `ImportBegin` and `ImportEnd`. */
  function HandleImport(s: State, file: Option<FileRef>, uploaded: Remote<()>, fetched: Remote<Listing>): (r: Step)
    ensures file.None? ==> r == Step(s, [])
    ensures file.Some? ==> r == ImportEnd(ImportBegin(s), file.value, uploaded, fetched)
    ensures file.Some? ==> !r.state.importing
    ensures file.Some? && uploaded.Err? ==> r.sent == [PostImport(file.value)] && r.state.employees == s.employees
  {
    if file.None? then Step(s, [])
    else ImportEnd(ImportBegin(s), file.value, uploaded, fetched)
  }

  // ---------------------------------------------------------------------
  // Exports

  /** A bound in a download name: `all` when unset, otherwise the
      picker's formatted text, which reads back as the picked day, or is
      `Invalid Date`. */
  function RangeLabel(d: Option<Dates.Date>): (l: string)
    ensures d.None? ==> l == "all"
    ensures d.Some? ==> Dates.ParseIso(l) == ServerBound(d.value)
    ensures d.Some? && !Dates.Valid(d.value) ==> l == DayText.InvalidText
  {
    if d.Some? then DayText.PickerText(d.value) else "all"
  }

  /** The name the browser saves a download under. */
  function ExportName(start: Option<Dates.Date>, end: Option<Dates.Date>, kind: string): (name: string)
    ensures |name| == 12 + |RangeLabel(start)| + |RangeLabel(end)| + |kind|
  {
    "employees_" + RangeLabel(start) + "_" + RangeLabel(end) + "." + kind
  }

  /** `handleExport`: one download request for `/employees/export/<kind>`
      with `include_price` and the set bounds, saved as
      `employees_<start|all>_<end|all>.<kind>`; the state is untouched. */
  function HandleExport(s: State, kind: string, withPrice: bool): (r: Step)
    ensures r.state == s && |r.sent| == 1 && r.sent[0].GetExport?
    ensures r.sent[0].kind == kind && r.sent[0].filename == ExportName(s.startDate, s.endDate, kind)
    ensures r.sent[0].query.Keys == {"include_price"} + RangeQuery(s.startDate, s.endDate).Keys
    ensures r.sent[0].query["include_price"] == Schemas.JBool(withPrice)
    ensures forall k :: k in RangeQuery(s.startDate, s.endDate) ==>
      r.sent[0].query[k] == RangeQuery(s.startDate, s.endDate)[k]
  {
    var range := RangeQuery(s.startDate, s.endDate);
    var query := range["include_price" := Schemas.JBool(withPrice)];
    Step(s, [GetExport(kind, query, ExportName(s.startDate, s.endDate, kind))])
  }

  /** With both bounds set, the client saves a PDF under the very name the
      server gives it, but an Excel download, requested as `excel`, under
      `.excel` rather than the server's `.xlsx`. */
  lemma ExportNamesAgainstServer(s: State, start: Dates.Date, end: Dates.Date)
    requires Dates.Valid(start) && Dates.Valid(end)
    requires s.startDate == Some(start) && s.endDate == Some(end)
    ensures HandleExport(s, "pdf", true).sent[0].filename == Handlers.AttachmentName(start, end, ".pdf")
    ensures HandleExport(s, "excel", true).sent[0].filename != Handlers.AttachmentName(start, end, ".xlsx")
  {
    var stem := "employees_" + Dates.FormatIso(start) + "_" + Dates.FormatIso(end);
    assert ExportName(s.startDate, s.endDate, "pdf") == stem + "." + "pdf";
    assert stem + "." + "pdf" == stem + ".pdf";
    assert |ExportName(s.startDate, s.endDate, "excel")| == |stem| + 6;
  }

  /** An export with a bound unset asks for the file without that bound,
      which the server refuses (422); so only a fully bounded export is
      ever saved. */
  lemma ExportWithoutBoundLacksIt(s: State, kind: string, withPrice: bool)
    ensures s.startDate.None? ==> "start_date" !in HandleExport(s, kind, withPrice).sent[0].query
    ensures s.endDate.None? ==> "end_date" !in HandleExport(s, kind, withPrice).sent[0].query
  {
  }

  // ---------------------------------------------------------------------
  // Price and range

  /** Typing into the price field. */
  function EditPrice(s: State, text: string): (r: State)
    ensures r.editedPrice == Typed(text) && r == s.(editedPrice := Typed(text))
  {
    s.(editedPrice := Typed(text))
  }

  /** `handlePriceUpdate`, given what `parseFloat` reads from the price
      field (`None` for NaN): a missing or non-positive value sends nothing
      and changes nothing; otherwise one `PUT /settings`, and after success
      the returned price is stored and the list is fetched with no
      arguments. */
  function HandlePriceUpdate(s: State, parsed: Option<real>, saved: Remote<real>, fetched: Remote<Listing>): (r: Step)
    ensures parsed.None? || parsed.value <= 0.0 ==> r == Step(s, [])
    ensures parsed.Some? && parsed.value > 0.0 ==>
      |r.sent| >= 1 && r.sent[0] == PutSettings(map["lunch_price" := Schemas.JNum(parsed.value)])
    ensures parsed.Some? && parsed.value > 0.0 && saved.Err? ==> r.state == s && |r.sent| == 1
    ensures parsed.Some? && parsed.value > 0.0 && saved.Ok? ==>
      r == (var f := Fetch(s.(price := saved.data), Undefined, Undefined, fetched);
            Step(f.state, [r.sent[0]] + f.sent))
  {
    if parsed.None? || parsed.value <= 0.0 then Step(s, [])
    else
      var put := PutSettings(map["lunch_price" := Schemas.JNum(parsed.value)]);
      if saved.Err? then Step(s, [put])
      else
        var f := Fetch(s.(price := saved.data), Undefined, Undefined, fetched);
        Step(f.state, [put] + f.sent)
  }

  /** A successful price update refetches the range that is selected: the
      argument-less fetch falls back to the state's bounds. */
  lemma PriceUpdateKeepsRange(s: State, p: real, saved: real, fetched: Remote<Listing>)
    requires p > 0.0
    ensures var r := HandlePriceUpdate(s, Some(p), Ok(saved), fetched);
      && r.sent[1..] == [GetEmployees(RangeQuery(s.startDate, s.endDate))]
      && r.state.startDate == s.startDate && r.state.endDate == s.endDate
  {
  }

  /** Picking a start date, or clearing it: the selection changes and the
      new range is fetched, whatever the picker holds. */
  function SelectStart(s: State, d: Option<Dates.Date>, fetched: Remote<Listing>): (r: Step)
    ensures r.state.startDate == d && r.state.endDate == s.endDate
    ensures r.sent == [GetEmployees(RangeQuery(d, s.endDate))]
  {
    Refetch(s.(startDate := d), fetched)
  }

  /** Picking an end date, or clearing it, likewise. */
  function SelectEnd(s: State, d: Option<Dates.Date>, fetched: Remote<Listing>): (r: Step)
    ensures r.state.endDate == d && r.state.startDate == s.startDate
    ensures r.sent == [GetEmployees(RangeQuery(s.startDate, d))]
  {
    Refetch(s.(endDate := d), fetched)
  }

  /** The add dialog's date picker: a cleared picker (null) leaves the draft
      as it is; any other value, an invalid date included, becomes the
      draft's date; nothing else changes. */
  function PickDraftDate(s: State, value: Option<Dates.Date>): (r: State)
    ensures r.draft.date == (if value.Some? then value.value else s.draft.date)
    ensures r.draft.(date := s.draft.date) == s.draft && r.(draft := s.draft) == s
  {
    if value.Some? then s.(draft := s.draft.(date := value.value)) else s
  }

  /** The date picked for a new record reaches the server: the add request
      carries exactly that day, and is rejected when the picker held an
      invalid date. */
  lemma PickedDateReachesServer(s: State, d: Dates.Date, posted: Remote<()>, today: Dates.Date, fetched: Remote<Listing>)
    ensures var body := HandleAdd(PickDraftDate(s, Some(d)), posted, today, fetched).sent[0].body;
      && (Schemas.DecodeEmployeeCreate(body).Some? <==> Dates.Valid(d))
      && (Dates.Valid(d) ==> Schemas.DecodeEmployeeCreate(body).value.date == d)
  {
    AddPayloadIsDraft(PickDraftDate(s, Some(d)).draft);
  }

  // ---------------------------------------------------------------------
  // Whole-dashboard invariants

  /** The handlers a user can trigger, with the outcomes of their calls. */
  datatype Action =
    | Select(start: bool, bound: Option<Dates.Date>, fetched: Remote<Listing>)
    | PickDate(value: Option<Dates.Date>)
    | Add(posted: Remote<()>, today: Dates.Date, fetched: Remote<Listing>)
    | CommitEdit(newRow: Row, oldRow: Row, put: Remote<()>, fetched: Remote<Listing>)
    | Delete(id: int, confirmed: bool, deleted: Remote<()>, fetched: Remote<Listing>)
    | Import(file: Option<FileRef>, uploaded: Remote<()>, fetched: Remote<Listing>)
    | Export(kind: string, withPrice: bool)
    | TypePrice(text: string)
    | SavePrice(parsed: Option<real>, saved: Remote<real>, fetched: Remote<Listing>)

  /** One user action, run to completion. */
  function Run(s: State, a: Action): (r: Step)
  {
    match a
    case Select(start, bound, fetched) => if start then SelectStart(s, bound, fetched) else SelectEnd(s, bound, fetched)
    case PickDate(value) => Step(PickDraftDate(s, value), [])
    case Add(posted, today, fetched) => HandleAdd(s, posted, today, fetched)
    case CommitEdit(newRow, oldRow, put, fetched) => ProcessRowUpdate(s, newRow, oldRow, put, fetched).step
    case Delete(id, confirmed, deleted, fetched) => HandleDelete(s, id, confirmed, deleted, fetched)
    case Import(file, uploaded, fetched) => HandleImport(s, file, uploaded, fetched)
    case Export(kind, withPrice) => HandleExport(s, kind, withPrice)
    case TypePrice(text) => Step(EditPrice(s, text), [])
    case SavePrice(parsed, saved, fetched) => HandlePriceUpdate(s, parsed, saved, fetched)
  }

  /** The selected range, as the state holds it. */
  function Range(s: State): (r: (Option<Dates.Date>, Option<Dates.Date>))
    ensures r.0 == s.startDate && r.1 == s.endDate
  {
    (s.startDate, s.endDate)
  }

  /** The state after a sequence of settled actions; without a range
      selection among them, the selected range stays as it was. */
  function RunAll(s: State, actions: seq<Action>): (r: State)
    ensures (forall i :: 0 <= i < |actions| ==> !actions[i].Select?) ==> Range(r) == Range(s)
    decreases |actions|
  {
    if actions == [] then s
    else
      RunKeepsIdle(s, actions[0]);
      RunAll(Run(s, actions[0]).state, actions[1..])
  }

  /** Every handler, once its calls have settled, leaves an idle dashboard
      idle, and only a range selection changes the selected range. */
  lemma RunKeepsIdle(s: State, a: Action)
    ensures Idle(s) ==> Idle(Run(s, a).state)
    ensures !a.Select? ==> Range(Run(s, a).state) == Range(s)
  {
    match a
    case Select(_, _, _) =>
    case PickDate(_) =>
    case Add(_, _, _) =>
    case CommitEdit(_, _, _, _) =>
    case Delete(_, _, _, _) =>
    case Import(_, _, _) =>
    case Export(_, _) =>
    case TypePrice(_) =>
    case SavePrice(_, _, _) =>
  }

  /** From an idle state, any run of settled actions ends idle. */
  lemma {:induction false} RunAllIdle(s: State, actions: seq<Action>)
    requires Idle(s)
    ensures Idle(RunAll(s, actions))
    decreases |actions|
  {
    if actions != [] {
      RunKeepsIdle(s, actions[0]);
      RunAllIdle(Run(s, actions[0]).state, actions[1..]);
    }
  }
}

=== FILE: dates.dfy ===
/** Calendar dates (Python's `datetime.date`, dayjs at day granularity) and
    their ISO 8601 `YYYY-MM-DD` text form. */
module Dates {
  import opened Options

  datatype Date = Date(year: int, month: int, day: int)

  predicate IsLeapYear(y: int) {
    (y % 4 == 0 && y % 100 != 0) || y % 400 == 0
  }

  function DaysInMonth(y: int, m: int): int {
    if m == 2 then (if IsLeapYear(y) then 29 else 28)
    else if m == 4 || m == 6 || m == 9 || m == 11 then 30
    else 31
  }

  /** The dates Python's `date` type can hold: years 1 to 9999. */
  predicate Valid(d: Date) {
    1 <= d.year <= 9999 && 1 <= d.month <= 12 && 1 <= d.day <= DaysInMonth(d.year, d.month)
  }

  /** Chronological order, as SQL compares `Date` columns. */
  predicate Le(a: Date, b: Date) {
    a.year < b.year
    || (a.year == b.year && (a.month < b.month || (a.month == b.month && a.day <= b.day)))
  }

  lemma LeTotalOrder(a: Date, b: Date, c: Date)
    ensures Le(a, a)
    ensures Le(a, b) || Le(b, a)
    ensures Le(a, b) && Le(b, a) ==> a == b
    ensures Le(a, b) && Le(b, c) ==> Le(a, c)
  {
  }

  function Pow10(w: nat): (r: nat)
    ensures r >= 1
  {
    if w == 0 then 1 else 10 * Pow10(w - 1)
  }

  predicate IsDigit(c: char) {
    '0' <= c <= '9'
  }

  predicate AllDigits(s: string) {
    forall i :: 0 <= i < |s| ==> IsDigit(s[i])
  }

  /** `n` written with exactly `w` decimal digits, zero-padded on the left. */
  function Digits(n: nat, w: nat): (r: string)
    requires n < Pow10(w)
    ensures |r| == w && AllDigits(r)
  {
    if w == 0 then []
    else Digits(n / 10, w - 1) + [('0' as int + n % 10) as char]
  }

  /** The number a string of decimal digits denotes. */
  function DigitsValue(s: string): (r: nat)
    requires AllDigits(s)
    ensures r < Pow10(|s|)
  {
    if s == [] then 0
    else 10 * DigitsValue(s[..|s| - 1]) + (s[|s| - 1] as int - '0' as int)
  }

  lemma {:induction false} DigitsRoundTrip(n: nat, w: nat)
    requires n < Pow10(w)
    ensures DigitsValue(Digits(n, w)) == n
  {
    if w > 0 {
      DigitsRoundTrip(n / 10, w - 1);
      var s := Digits(n, w);
      assert s[..|s| - 1] == Digits(n / 10, w - 1);
    }
  }

  lemma {:induction false} ValueRoundTrip(s: string)
    requires AllDigits(s)
    ensures Digits(DigitsValue(s), |s|) == s
  {
    if s != [] {
      var init := s[..|s| - 1];
      ValueRoundTrip(init);
      assert s == init + [s[|s| - 1]];
    }
  }

  /** `date.isoformat()`, `strftime("%Y-%m-%d")` and dayjs's
      `format('YYYY-MM-DD')`. */
  function FormatIso(d: Date): (r: string)
    requires Valid(d)
    ensures |r| == 10 && r[4] == '-' && r[7] == '-'
  {
    Digits(d.year, 4) + "-" + Digits(d.month, 2) + "-" + Digits(d.day, 2)
  }

  /** Reads the ten-character `YYYY-MM-DD` form back into a date; anything
      else, or a day that does not exist, is `None`. */
  function ParseIso(s: string): (r: Option<Date>)
    ensures r.Some? ==> Valid(r.value) && |s| == 10
  {
    if |s| == 10 && s[4] == '-' && s[7] == '-'
       && AllDigits(s[..4]) && AllDigits(s[5..7]) && AllDigits(s[8..])
    then
      var d := Date(DigitsValue(s[..4]), DigitsValue(s[5..7]), DigitsValue(s[8..]));
      if Valid(d) then Some(d) else None
    else None
  }

  /** Formatting and parsing are inverse: every valid date survives the
      round trip through its text. */
  lemma FormatThenParse(d: Date)
    requires Valid(d)
    ensures ParseIso(FormatIso(d)) == Some(d)
  {
    var s := FormatIso(d);
    assert s[..4] == Digits(d.year, 4);
    assert s[5..7] == Digits(d.month, 2);
    assert s[8..] == Digits(d.day, 2);
    DigitsRoundTrip(d.year, 4);
    DigitsRoundTrip(d.month, 2);
    DigitsRoundTrip(d.day, 2);
  }

  /** ... and every text that parses is exactly the formatted date. */
  lemma ParseThenFormat(s: string)
    requires ParseIso(s).Some?
    ensures FormatIso(ParseIso(s).value) == s
  {
    ValueRoundTrip(s[..4]);
    ValueRoundTrip(s[5..7]);
    ValueRoundTrip(s[8..]);
    assert s == s[..4] + "-" + s[5..7] + "-" + s[8..];
  }

  /** Distinct dates have distinct ISO texts. */
  lemma FormatInjective(a: Date, b: Date)
    requires Valid(a) && Valid(b) && FormatIso(a) == FormatIso(b)
    ensures a == b
  {
    FormatThenParse(a);
    FormatThenParse(b);
  }
}

=== FILE: daytext.dfy ===
/** How the client's date library (dayjs) reads day text and writes a day
    back as `YYYY-MM-DD`, at day granularity. Its own parser takes a date
    written as four year digits, an optional `-` or `/`, up to two month
    digits, an optional separator and up to two day digits, and hands the
    numbers to JavaScript's `Date` constructor, which rolls an out-of-range
    month or day over into the neighbouring months. */
module DayText {
  import opened Options
  import opened Dates

  /** What `format` yields for an invalid date. */
  const InvalidText: string := "Invalid Date"

  // ---------------------------------------------------------------------
  // Calendar days of any positive year

  /** A day of the proleptic Gregorian calendar; unlike Python's `date`,
      JavaScript's `Date` is not limited to four-digit years. */
  predicate IsDay(d: Date) {
    d.year >= 1 && 1 <= d.month <= 12 && 1 <= d.day <= DaysInMonth(d.year, d.month)
  }

  /** The next calendar day. */
  function Succ(d: Date): (r: Date)
    requires IsDay(d)
    ensures IsDay(r)
  {
    if d.day < DaysInMonth(d.year, d.month) then Date(d.year, d.month, d.day + 1)
    else if d.month < 12 then Date(d.year, d.month + 1, 1)
    else Date(d.year + 1, 1, 1)
  }

  /** The day `n` days after `d`, counted one day at a time. */
  function AddDays(d: Date, n: nat): (r: Date)
    requires IsDay(d)
    ensures IsDay(r)
    decreases n
  {
    if n == 0 then d else AddDays(Succ(d), n - 1)
  }

  /** The last day of the month before month `m` of year `y`. */
  function LastOfPreviousMonth(y: int, m: int): (r: Date)
    requires y >= 2 && 1 <= m <= 12
    ensures IsDay(r)
  {
    if m > 1 then Date(y, m - 1, DaysInMonth(y, m - 1)) else Date(y - 1, 12, 31)
  }

  /** Day `d` of month `m` in year `y` as the `Date` constructor reads it:
      day 0 is the last day of the previous month, and a day past the end
      of the month runs on into the following months. */
  function Roll(y: int, m: int, d: nat): (r: Date)
    requires y >= 2 && 1 <= m <= 12
    ensures IsDay(r)
    ensures y - 1 <= r.year <= y + d / 28
    decreases d
  {
    if d == 0 then LastOfPreviousMonth(y, m)
    else if d <= DaysInMonth(y, m) then Date(y, m, d)
    else if m < 12 then Roll(y, m + 1, d - DaysInMonth(y, m))
    else Roll(y + 1, 1, d - DaysInMonth(y, m))
  }

  lemma {:induction false} AddDaysWithinMonth(y: int, m: int, d: int, k: nat)
    requires IsDay(Date(y, m, d)) && d + k <= DaysInMonth(y, m)
    ensures AddDays(Date(y, m, d), k) == Date(y, m, d + k)
    decreases k
  {
    if k > 0 {
      AddDaysWithinMonth(y, m, d + 1, k - 1);
    }
  }

  lemma {:induction false} AddDaysSplit(x: Date, a: nat, b: nat)
    requires IsDay(x)
    ensures AddDays(x, a + b) == AddDays(AddDays(x, a), b)
    decreases a
  {
    if a > 0 {
      AddDaysSplit(Succ(x), a - 1, b);
    }
  }

  /** Counting a whole month of days from its first day reaches the first
      day of the next month. */
  lemma WholeMonth(y: int, m: int)
    requires y >= 1 && 1 <= m <= 12
    ensures AddDays(Date(y, m, 1), DaysInMonth(y, m))
            == if m < 12 then Date(y, m + 1, 1) else Date(y + 1, 1, 1)
  {
    var n := DaysInMonth(y, m);
    AddDaysWithinMonth(y, m, 1, n - 1);
    AddDaysSplit(Date(y, m, 1), n - 1, 1);
  }

  /** Rolling over agrees with counting: day `d` (from 1) of a month is the
      day `d - 1` days after its first, however far past the month's end. */
  lemma {:induction false} RollCountsDays(y: int, m: int, d: nat)
    requires y >= 2 && 1 <= m <= 12 && d >= 1
    ensures Roll(y, m, d) == AddDays(Date(y, m, 1), d - 1)
    decreases d
  {
    var n := DaysInMonth(y, m);
    if d <= n {
      AddDaysWithinMonth(y, m, 1, d - 1);
    } else {
      var first := if m < 12 then Date(y, m + 1, 1) else Date(y + 1, 1, 1);
      RollCountsDays(first.year, first.month, d - n);
      WholeMonth(y, m);
      AddDaysSplit(Date(y, m, 1), n, d - n - 1);
    }
  }

  /** ... and day 0 is the day just before the first. */
  lemma RollZeroPrecedesFirst(y: int, m: int)
    requires y >= 2 && 1 <= m <= 12
    ensures Succ(Roll(y, m, 0)) == Date(y, m, 1)
  {
  }

  // ---------------------------------------------------------------------
  // Reading day text

  /** The numbers dayjs's parser takes from a date-only text; `None` marks
      a month that was left out, or a day written with no digits. */
  datatype Fields = Fields(year: nat, month: Option<nat>, day: Option<nat>)

  predicate IsSeparator(c: char) {
    c == '-' || c == '/'
  }

  function SkipSeparator(s: string): (r: string)
    ensures r == s || (|s| > 0 && IsSeparator(s[0]) && r == s[1..])
  {
    if |s| > 0 && IsSeparator(s[0]) then s[1..] else s
  }

  /** How many digits `s` starts with, counting at most two. */
  function LeadingDigits(s: string): (k: nat)
    ensures k <= 2 && k <= |s| && AllDigits(s[..k])
    ensures k < 2 && k < |s| ==> !IsDigit(s[k])
  {
    if |s| > 0 && IsDigit(s[0]) then (if |s| > 1 && IsDigit(s[1]) then 2 else 1) else 0
  }

  /** Splits a date-only text into its fields, reading each group of digits
      as long as it can; `None` when the text has any other shape. */
  function SplitDayText(s: string): (r: Option<Fields>)
    ensures r.Some? ==> |s| >= 4 && AllDigits(s[..4]) && r.value.year == DigitsValue(s[..4])
    ensures r.Some? ==> r.value.year < 10000
    ensures r.Some? && r.value.month.Some? ==> r.value.month.value < 100
    ensures r.Some? && r.value.day.Some? ==> r.value.day.value < 100
  {
    if |s| < 4 || !AllDigits(s[..4]) then None
    else
      var afterYear := SkipSeparator(s[4..]);
      var k := LeadingDigits(afterYear);
      var afterMonth := SkipSeparator(afterYear[k..]);
      var j := LeadingDigits(afterMonth);
      if j < |afterMonth| then None
      else
        Some(Fields(
          DigitsValue(s[..4]),
          if k == 0 then None else Some(DigitsValue(afterYear[..k])),
          if j == 0 then None else Some(DigitsValue(afterMonth[..j]))))
  }

  /** The day `new Date(year, month - 1 || 0, day || 1)` stands for: a
      two-digit year 0–99 means 1900–1999, a missing month January, an
      empty day the first; months and days out of range roll over. */
  function Resolve(f: Fields): (d: Date)
    requires f.year < 10000
    requires f.month.Some? ==> f.month.value < 100
    requires f.day.Some? ==> f.day.value < 100
    ensures IsDay(d) && 98 <= d.year <= 10011
  {
    var y := if f.year <= 99 then 1900 + f.year else f.year;
    var monthIndex := if f.month.Some? then f.month.value - 1 else 0;
    var total := y * 12 + monthIndex;
    var day := if f.day.Some? then f.day.value else 1;
    Roll(total / 12, total % 12 + 1, day)
  }

  // ---------------------------------------------------------------------
  // Writing day text

  /** `format('YYYY-MM-DD')` of a day: the year padded to at least four
      digits, month and day to two. */
  function CivilText(d: Date): (r: string)
    requires IsDay(d) && d.year < 100000
    ensures d.year < 10000 ==> Valid(d) && r == FormatIso(d)
    ensures d.year >= 10000 ==> |r| == 11
  {
    (if d.year < 10000 then Digits(d.year, 4) else Digits(d.year, 5))
      + "-" + Digits(d.month, 2) + "-" + Digits(d.day, 2)
  }

  /** `dayjs(text).format('YYYY-MM-DD')` for text the grid holds: the
      resolved day's text, or `Invalid Date` for text of any other shape. */
  function Reformat(text: string): (r: string)
    ensures SplitDayText(text).None? ==> r == InvalidText
    ensures SplitDayText(text).Some? ==> r == CivilText(Resolve(SplitDayText(text).value))
  {
    match SplitDayText(text)
    case None => InvalidText
    case Some(f) => CivilText(Resolve(f))
  }

  /** The day dayjs reads from the ISO text of a calendar day: the same
      day, except that years 1–99 are taken as 1900–1999. */
  function ReadIso(d: Date): (r: Date)
    requires Valid(d)
    ensures Valid(r)
    ensures d.year >= 100 ==> r == d
    ensures d.year < 100 ==> r == Date(d.year + 1900, d.month, d.day)
  {
    if d.year < 100 then Date(d.year + 1900, d.month, d.day) else d
  }

  /** Text of the shape `YYYY-MM-DD` splits into exactly its three
      numbers, whether or not they name a calendar day. */
  lemma SplitIsoShaped(text: string)
    requires |text| == 10 && text[4] == '-' && text[7] == '-'
    requires AllDigits(text[..4]) && AllDigits(text[5..7]) && AllDigits(text[8..])
    ensures SplitDayText(text) ==
      Some(Fields(DigitsValue(text[..4]), Some(DigitsValue(text[5..7])), Some(DigitsValue(text[8..]))))
  {
    var afterYear := SkipSeparator(text[4..]);
    assert afterYear == text[5..];
    assert text[5..7][0] == text[5] && text[5..7][1] == text[6];
    assert LeadingDigits(afterYear) == 2;
    assert afterYear[..2] == text[5..7];
    assert afterYear[2..] == text[7..];
    var afterMonth := SkipSeparator(afterYear[2..]);
    assert afterMonth == text[8..];
    assert afterMonth[0] == text[8..][0] && afterMonth[1] == text[8..][1];
    assert LeadingDigits(afterMonth) == 2;
    assert afterMonth[..2] == text[8..];
  }

  /** In particular the ISO text of a calendar day splits into that day's
      year, month and day. */
  lemma SplitIso(text: string)
    requires ParseIso(text).Some?
    ensures var d := ParseIso(text).value;
      SplitDayText(text) == Some(Fields(d.year, Some(d.month), Some(d.day)))
  {
    SplitIsoShaped(text);
  }

  /** Month `m` of year `y`, counted as a number of months and split
      again, is the same month. */
  lemma MonthCount(y: int, m: int)
    requires 1 <= m <= 12
    ensures (y * 12 + (m - 1)) / 12 == y && (y * 12 + (m - 1)) % 12 + 1 == m
  {
  }

  /** Years 1–99 and 1901–1999 have the same leap years. */
  lemma CenturyShiftKeepsLeap(y: int)
    requires 1 <= y <= 99
    ensures IsLeapYear(y + 1900) == IsLeapYear(y)
  {
    assert (y + 1900) % 4 == y % 4;
    assert (y + 1900) % 100 != 0 && y % 100 != 0;
  }

  /** Fields naming a day of a month resolve to that day, after the
      two-digit-year shift. */
  lemma ResolveInRange(f: Fields)
    requires 100 <= f.year < 10000 || 1 <= f.year <= 99
    requires f.month.Some? && 1 <= f.month.value <= 12
    requires f.day.Some? && 1 <= f.day.value <= DaysInMonth(f.year, f.month.value)
    ensures Resolve(f) == Date(if f.year <= 99 then f.year + 1900 else f.year, f.month.value, f.day.value)
  {
    var y := if f.year <= 99 then 1900 + f.year else f.year;
    MonthCount(y, f.month.value);
    if f.year <= 99 {
      CenturyShiftKeepsLeap(f.year);
    }
  }

  /** A calendar day's ISO text is read back as that day (with the
      two-digit-year shift) and written out again as its ISO text. */
  lemma IsoTextRead(text: string)
    requires ParseIso(text).Some?
    ensures Reformat(text) == FormatIso(ReadIso(ParseIso(text).value))
    ensures ParseIso(text).value.year >= 100 ==> Reformat(text) == text
  {
    var d := ParseIso(text).value;
    var f := Fields(d.year, Some(d.month), Some(d.day));
    SplitIso(text);
    ResolveInRange(f);
    assert Resolve(f) == ReadIso(d);
    assert Reformat(text) == CivilText(ReadIso(d));
    if d.year >= 100 {
      ParseThenFormat(text);
    }
  }

  /** Hence the ISO text of a day from the year 100 on is sent unchanged. */
  lemma IsoTextKept(text: string)
    ensures ParseIso(text).Some? && ParseIso(text).value.year >= 100 ==> Reformat(text) == text
  {
    if ParseIso(text).Some? {
      IsoTextRead(text);
    }
  }

  /** What the server reads from the reformatted text: exactly the
      resolved day when its year has four digits; nothing otherwise. */
  lemma ServerReadsReformat(text: string)
    ensures ParseIso(Reformat(text)) ==
      match SplitDayText(text)
      case None => None
      case Some(f) => if Resolve(f).year <= 9999 then Some(Resolve(f)) else None
  {
    match SplitDayText(text)
    case None =>
      assert |InvalidText| == 12;
    case Some(f) =>
      var d := Resolve(f);
      if d.year <= 9999 {
        FormatThenParse(d);
      }
  }

  lemma DigitsOfExamples()
    ensures Digits(2024, 4) == "2024" && Digits(1, 2) == "01" && Digits(2, 2) == "02"
    ensures Digits(3, 2) == "03" && Digits(5, 2) == "05" && Digits(30, 2) == "30"
    ensures Digits(1, 1) == "1" && Digits(5, 1) == "5"
  {
  }

  lemma CivilTextOfExamples()
    ensures CivilText(Date(2024, 1, 5)) == "2024-01-05"
    ensures CivilText(Date(2024, 3, 1)) == "2024-03-01"
  {
    DigitsOfExamples();
    var a := Digits(2024, 4) + "-" + Digits(1, 2) + "-" + Digits(5, 2);
    assert a == "2024" + "-" + "01" + "-" + "05" == "2024-01-05";
    var b := Digits(2024, 4) + "-" + Digits(3, 2) + "-" + Digits(1, 2);
    assert b == "2024" + "-" + "03" + "-" + "01" == "2024-03-01";
  }

  lemma ValuesOfExamples()
    ensures DigitsValue("2024") == 2024 && DigitsValue("01") == 1 && DigitsValue("02") == 2
    ensures DigitsValue("05") == 5 && DigitsValue("30") == 30
    ensures DigitsValue("1") == 1 && DigitsValue("5") == 5
  {
    DigitsOfExamples();
    DigitsRoundTrip(2024, 4);
    DigitsRoundTrip(1, 2);
    DigitsRoundTrip(2, 2);
    DigitsRoundTrip(5, 2);
    DigitsRoundTrip(30, 2);
    DigitsRoundTrip(1, 1);
    DigitsRoundTrip(5, 1);
  }

  lemma SplitOfLeapExample()
    ensures SplitDayText("2024-02-30") == Some(Fields(2024, Some(2), Some(30)))
  {
    var text := "2024-02-30";
    assert text[..4] == "2024" && text[5..7] == "02" && text[8..] == "30";
    ValuesOfExamples();
    SplitIsoShaped(text);
  }

  lemma ResolveOfLeapExample()
    ensures Resolve(Fields(2024, Some(2), Some(30))) == Date(2024, 3, 1)
  {
    MonthCount(2024, 2);
    assert DaysInMonth(2024, 2) == 29;
    assert Roll(2024, 2, 30) == Roll(2024, 3, 1) == Date(2024, 3, 1);
  }

  /** A day past the end of the month rolls over: the client sends the
      first of March for the thirtieth of February in a leap year. */
  lemma ReformatRollsOver()
    ensures Reformat("2024-02-30") == "2024-03-01"
  {
    SplitOfLeapExample();
    ResolveOfLeapExample();
    CivilTextOfExamples();
  }

  /** Single-digit months and days are padded. */
  lemma ReformatPads()
    ensures Reformat("2024-1-5") == "2024-01-05"
  {
    var text := "2024-1-5";
    assert text[..4] == "2024" && text[4..] == "-1-5";
    assert SkipSeparator("-1-5") == "1-5" && "1-5"[..1] == "1" && "1-5"[1..] == "-5";
    assert SkipSeparator("-5") == "5" && "5"[..1] == "5";
    ValuesOfExamples();
    var f := Fields(2024, Some(1), Some(5));
    assert SplitDayText(text) == Some(f);
    ResolveInRange(f);
    CivilTextOfExamples();
  }

  /** The separators may be left out altogether. */
  lemma ReformatWithoutSeparators()
    ensures Reformat("20240105") == "2024-01-05"
  {
    var text := "20240105";
    assert text[..4] == "2024" && text[4..] == "0105";
    assert SkipSeparator("0105") == "0105";
    assert "0105"[..2] == "01" && "0105"[2..] == "05" && "05"[..2] == "05";
    ValuesOfExamples();
    var f := Fields(2024, Some(1), Some(5));
    assert SplitDayText(text) == Some(f);
    ResolveInRange(f);
    CivilTextOfExamples();
  }

  // ---------------------------------------------------------------------
  // Picker values

  /** `format('YYYY-MM-DD')` of a date picker's value. A value that is not
      a calendar day stands for the invalid date a picker holds while its
      text is only partly typed. */
  function PickerText(d: Date): (r: string)
    ensures Valid(d) ==> r == FormatIso(d)
    ensures !Valid(d) ==> r == InvalidText
    ensures ParseIso(r) == if Valid(d) then Some(d) else None
  {
    if Valid(d) then
      FormatThenParse(d);
      FormatIso(d)
    else
      assert |InvalidText| == 12;
      InvalidText
  }
}

=== FILE: exporter.dfy ===
/** The report builders behind the Excel and PDF downloads: the row list,
    the spreadsheet's summary row and the PDF table layout. Rendering to
    bytes (pandas, openpyxl, FPDF) is not part of the model. */
module Exporter {
  import opened Options
  import opened Schemas
  import Dates

  /** A spreadsheet or table cell before rendering. */
  datatype Cell = IntCell(i: int) | RealCell(r: real) | TextCell(t: string)

  /** One report row: `№`, `Ф.И.О`, `Статус`, `Дата` and, with prices,
      `Стоимость`. */
  datatype ExportRow = ExportRow(number: nat, fullName: string, status: string, date: string, cost: Option<real>)

  const NumberColumn := "№"
  const NameColumn := "Ф.И.О"
  const StatusColumn := "Статус"
  const DateColumn := "Дата"
  const CostColumn := "Стоимость"
  const ParticipatesLabel := "Участвует"
  const AbsentLabel := "Не участвует"
  const TotalLabel := "Итого"

  predicate DatesValid(employees: seq<Employee>) {
    forall i :: 0 <= i < |employees| ==> Dates.Valid(employees[i].date)
  }

  /** The row the report shows for the `index`-th employee (from 1). */
  function RowOf(index: nat, e: Employee, includePrice: bool, price: real): ExportRow
    requires Dates.Valid(e.date)
  {
    ExportRow(
      index,
      e.fullName,
      if e.status then ParticipatesLabel else AbsentLabel,
      Dates.FormatIso(e.date),
      if includePrice then Some(if e.status then price else 0.0) else None)
  }

  /** `_employees_to_rows`: one row per employee, in input order, numbered
      from 1; the status label says whether the employee participates; the
      cost appears only with prices and is the price for participants and
      0 for the others. */
  method EmployeesToRows(employees: seq<Employee>, includePrice: bool, price: real)
    returns (rows: seq<ExportRow>)
    requires DatesValid(employees)
    ensures |rows| == |employees|
    ensures forall i :: 0 <= i < |rows| ==>
      && rows[i].number == i + 1
      && rows[i].fullName == employees[i].fullName
      && rows[i].status == (if employees[i].status then ParticipatesLabel else AbsentLabel)
      && rows[i].date == Dates.FormatIso(employees[i].date)
      && (rows[i].cost.Some? <==> includePrice)
      && (includePrice ==> rows[i].cost.value == if employees[i].status then price else 0.0)
    ensures forall i :: 0 <= i < |rows| ==> rows[i] == RowOf(i + 1, employees[i], includePrice, price)
  {
    rows := [];
    var index := 0;
    while index < |employees|
      invariant 0 <= index <= |employees|
      invariant |rows| == index
      invariant forall i :: 0 <= i < index ==> rows[i] == RowOf(i + 1, employees[i], includePrice, price)
    {
      rows := rows + [RowOf(index + 1, employees[index], includePrice, price)];
      index := index + 1;
    }
  }

  /** A row as the dictionary handed to the spreadsheet and PDF writers. */
  function Cells(row: ExportRow): (m: map<string, Cell>)
    ensures m.Keys == {NumberColumn, NameColumn, StatusColumn, DateColumn}
      + (if row.cost.Some? then {CostColumn} else {})
  {
    var base := map[NumberColumn := IntCell(row.number), NameColumn := TextCell(row.fullName),
                    StatusColumn := TextCell(row.status), DateColumn := TextCell(row.date)];
    if row.cost.Some? then base[CostColumn := RealCell(row.cost.value)] else base
  }

  /** The summary row `export_excel` appends when prices are shown. */
  function SummaryRow(totalCost: real): map<string, Cell> {
    map[NumberColumn := TextCell(""), NameColumn := TextCell(""), StatusColumn := TextCell(""),
        DateColumn := TextCell(TotalLabel), CostColumn := RealCell(totalCost)]
  }

  /** The sheet `export_excel` writes: the rows, then, only with prices, one
      summary row labelled "Итого" carrying the total cost. */
  function ExcelSheet(rows: seq<ExportRow>, includePrice: bool, totalCost: real): (sheet: seq<map<string, Cell>>)
    ensures |sheet| == |rows| + (if includePrice then 1 else 0)
    ensures forall i :: 0 <= i < |rows| ==> sheet[i] == Cells(rows[i])
    ensures includePrice ==>
      && DateColumn in sheet[|rows|] && sheet[|rows|][DateColumn] == TextCell(TotalLabel)
      && CostColumn in sheet[|rows|] && sheet[|rows|][CostColumn] == RealCell(totalCost)
  {
    var body := seq(|rows|, i requires 0 <= i < |rows| => Cells(rows[i]));
    if includePrice then body + [SummaryRow(totalCost)] else body
  }

  function Sum(s: seq<int>): int {
    if s == [] then 0 else Sum(s[..|s| - 1]) + s[|s| - 1]
  }

  /** The PDF table: headers with their column widths, one line of cells
      per row, and the total line (label width, value width, amount) that
      only the priced variant prints. */
  datatype PdfTable = PdfTable(
    headers: seq<string>,
    widths: seq<int>,
    body: seq<seq<Cell>>,
    total: Option<(int, int, real)>)

  const BaseHeaders := [NumberColumn, NameColumn, StatusColumn, DateColumn]
  const BaseWidths := [10, 70, 35, 30]
  const CostWidth := 30

  /** The cell printed under `header`: the row's value, or an empty text
      when the row has no such key. */
  function CellUnder(row: map<string, Cell>, header: string): Cell {
    if header in row then row[header] else TextCell("")
  }

  /** `export_pdf`'s table: the four base columns and, with prices, a
      "Стоимость" column 30 wide; so headers and widths always pair up. The
      total label spans every column but the last and is printed only with
      prices. */
  function BuildPdfTable(rows: seq<ExportRow>, includePrice: bool, totalCost: real): (t: PdfTable)
    ensures |t.headers| == |t.widths| == (if includePrice then 5 else 4)
    ensures t.headers[..4] == BaseHeaders && t.widths[..4] == BaseWidths
    ensures includePrice ==> t.headers[4] == CostColumn && t.widths[4] == CostWidth
    ensures |t.body| == |rows|
    ensures forall i :: 0 <= i < |rows| ==> |t.body[i]| == |t.headers|
    ensures t.total.Some? <==> includePrice
    ensures includePrice ==>
      t.total.value == (Sum(t.widths[..|t.widths| - 1]), t.widths[|t.widths| - 1], totalCost)
  {
    var headers := if includePrice then BaseHeaders + [CostColumn] else BaseHeaders;
    var widths := if includePrice then BaseWidths + [CostWidth] else BaseWidths;
    var body := seq(|rows|, i requires 0 <= i < |rows| =>
      seq(|headers|, j requires 0 <= j < |headers| => CellUnder(Cells(rows[i]), headers[j])));
    var total := if includePrice then Some((Sum(widths[..|widths| - 1]), widths[|widths| - 1], totalCost)) else None;
    PdfTable(headers, widths, body, total)
  }

  /** A table line shows `row`: under every header, the row's own value
      for that column. */
  predicate LineShows(headers: seq<string>, line: seq<Cell>, row: ExportRow) {
    |line| == |headers|
    && forall j :: 0 <= j < |headers| ==> headers[j] in Cells(row) && line[j] == Cells(row)[headers[j]]
  }

  /** When the rows come from one `_employees_to_rows` call, every header of
      the table is a key of every row: no cell falls back to the empty text,
      and the label of the total spans 145 of the 175 units of the table. */
  lemma PdfCellsComeFromRows(rows: seq<ExportRow>, includePrice: bool, totalCost: real)
    requires forall i :: 0 <= i < |rows| ==> (rows[i].cost.Some? <==> includePrice)
    ensures var t := BuildPdfTable(rows, includePrice, totalCost);
      forall i :: 0 <= i < |rows| ==> LineShows(t.headers, t.body[i], rows[i])
    ensures includePrice ==> BuildPdfTable(rows, includePrice, totalCost).total.value.0 == 145
  {
    var t := BuildPdfTable(rows, includePrice, totalCost);
    forall i, j | 0 <= i < |rows| && 0 <= j < |t.headers|
      ensures t.headers[j] in Cells(rows[i]) && t.body[i][j] == Cells(rows[i])[t.headers[j]]
    {
      assert j < 4 ==> t.headers[j] == BaseHeaders[j];
      assert t.body[i][j] == CellUnder(Cells(rows[i]), t.headers[j]);
    }
    if includePrice {
      assert t.widths[..4] == [10, 70, 35, 30];
      assert Sum([10, 70, 35, 30]) == 145 by {
        assert [10, 70, 35, 30][..3] == [10, 70, 35];
        assert [10, 70, 35][..2] == [10, 70];
        assert [10, 70][..1] == [10];
        assert [10][..0] == [];
      }
    }
  }
}

=== FILE: handlers.dfy ===
/** The HTTP endpoints of the backend, each one atomic transition of the
    store that answers either a body or an error status. Routing, sessions,
    authentication and byte encodings are not part of the model. */
module Handlers {
  import opened Options
  import opened Schemas
  import opened Crud
  import Dates
  import Text
  import Exporter

  /** An endpoint's answer: a body, or an `HTTPException` status. */
  datatype Response<T> = Success(body: T) | Error(status: int)

  const BadRequest := 400
  const Forbidden := 403
  const NotFoundStatus := 404
  const Unprocessable := 422

  /** `GET /employees`: the listed records, the price, and the head count
      and cost computed over the listed records. */
  method ListEndpoint(db: Db, start: Option<Dates.Date>, end: Option<Dates.Date>)
    returns (db': Db, response: EmployeeListResponse)
    requires Valid(db)
    ensures db' == EnsureSettings(db).0 && Valid(db')
    ensures response.lunchPrice == EnsureSettings(db).1
    ensures forall e :: e in response.employees <==>
      e.id in db.employees && db.employees[e.id] == e && InRange(e.date, start, end)
    ensures Sorted(response.employees) && DistinctIds(response.employees)
    ensures response.totalParticipants == AggregateCost(db, start, end).1
    ensures response.totalCost == response.totalParticipants as real * response.lunchPrice
    ensures response.totalCost == AggregateCost(db, start, end).2
  {
    var employees, price;
    db', employees, price := ListEmployees(db, start, end);
    var participants := Participants(employees);
    ListedParticipantsMatchAggregate(db, start, end, employees);
    response := EmployeeListResponse(employees, price, participants, participants as real * price);
  }

  /** `PUT /auth/credentials`: 400 when neither a user name nor a password
      is given; otherwise the credentials rule of the data layer applies. */
  function CredentialsEndpoint(db: Db, p: UserUpdate, hash: string -> string): (r: Response<Db>)
    requires ValidUserUpdate(p)
    ensures r.Error? <==> !Truthy(p.username) && !Truthy(p.password)
    ensures r.Error? ==> r.status == BadRequest
    ensures r.Success? ==> r.body == db.(user := UpdateCredentials(db.user, p, hash))
  {
    if !Truthy(p.username) && !Truthy(p.password) then Error(BadRequest)
    else Success(db.(user := UpdateCredentials(db.user, p, hash)))
  }

  /** `PUT /settings`: the validated price becomes the stored price. */
  function SettingsEndpoint(db: Db, p: SettingsUpdate): (r: (Db, real))
    requires ValidSettingsUpdate(p)
    ensures r.1 == p.lunchPrice > 0.0 && r.0.settings == Some(p.lunchPrice)
    ensures r.0.employees == db.employees
  {
    UpdateLunchPrice(db, p.lunchPrice)
  }

  /** `PUT /employees/{id}`: an unknown id is 404. */
  function EditEmployee(db: Db, id: int, p: EmployeeUpdate): (r: Response<(Db, Employee)>)
    requires Valid(db) && ValidEmployeeUpdate(p)
    ensures r.Error? <==> id !in db.employees
    ensures r.Error? ==> r.status == NotFoundStatus
    ensures r.Success? ==> r.body == UpdateEmployee(db, id, p).value
  {
    match UpdateEmployee(db, id, p)
    case NotFound => Error(NotFoundStatus)
    case Done(v) => Success(v)
  }

  /** `DELETE /employees/{id}`: an unknown id is 404. */
  function RemoveEmployee(db: Db, id: int): (r: Response<Db>)
    requires Valid(db)
    ensures r.Error? <==> id !in db.employees
    ensures r.Error? ==> r.status == NotFoundStatus
    ensures r.Success? ==> r.body.employees.Keys == db.employees.Keys - {id}
  {
    match DeleteEmployee(db, id)
    case NotFound => Error(NotFoundStatus)
    case Done(db') => Success(db')
  }

  // ---------------------------------------------------------------------
  // Spreadsheet import

  const NoteColumn := "Примечание"
  const RequiredColumns: set<string> := {"Ф.И.О", "Статус", "Дата"}
  const StatusTokens: set<string> := {"true", "1", "участвует", "yes", "да"}

  /** One decoded spreadsheet row: the name and status cells as text
      (`str(cell)`), the date cell as the date pandas reads from it (`None`
      when the conversion raises), and the note cell. */
  datatype SheetRow = SheetRow(fullName: string, status: string, date: Option<Dates.Date>, note: Option<string>)

  /** A decoded sheet: its column headers and its rows in order. */
  datatype Sheet = Sheet(columns: set<string>, rows: seq<SheetRow>)

  /** The uploaded file: unreadable, or decoded into a sheet. */
  datatype Upload = Unreadable | Decoded(sheet: Sheet)

  /** A status cell counts as participation when, stripped and lower-cased,
      it is one of the accepted tokens. */
  predicate ParseStatus(cell: string) {
    Canonical(cell) in StatusTokens
  }

  /** The form a status cell is compared in: stripped and lower-cased. */
  function Canonical(cell: string): string {
    Text.Lower(Text.Strip(cell))
  }

  lemma CanonicalOfLower(cell: string)
    ensures Canonical(Text.Lower(cell)) == Canonical(cell)
  {
    Text.StripLowerCommute(cell);
    Text.LowerIdempotent(Text.Strip(cell));
  }

  /** Letter case does not change a status cell's meaning. */
  lemma StatusCaseInsensitive(cell: string)
    ensures ParseStatus(Text.Lower(cell)) == ParseStatus(cell)
  {
    CanonicalOfLower(cell);
  }

  /** Nor does whitespace around it. */
  lemma StatusIgnoresSurroundingSpace(cell: string)
    ensures ParseStatus(" " + cell + " ") == ParseStatus(cell)
  {
    Text.StripIgnoresPadding(cell);
  }

  /** The record a row creates, or `None` when the row is skipped. */
  function ParseRow(row: SheetRow, hasNote: bool): (r: Option<EmployeeCreate>)
    ensures r.Some? <==> row.date.Some? && Dates.Valid(row.date.value)
    ensures r.Some? ==> ValidEmployeeCreate(r.value)
    ensures r.Some? ==> r.value.status == ParseStatus(row.status)
    ensures r.Some? ==> r.value.fullName == Text.Strip(row.fullName)
    ensures r.Some? && !hasNote ==> r.value.note.None?
    ensures r.Some? && hasNote ==> r.value.note == row.note
  {
    if row.date.None? || !Dates.Valid(row.date.value) then None
    else Some(EmployeeCreate(Text.Strip(row.fullName), ParseStatus(row.status), row.date.value,
                             if hasNote then row.note else None))
  }

  /** The records the rows create, in row order. */
  function Accepted(rows: seq<SheetRow>, hasNote: bool): (r: seq<EmployeeCreate>)
    ensures |r| <= |rows|
  {
    if rows == [] then []
    else
      var parsed := ParseRow(rows[0], hasNote);
      if parsed.Some? then [parsed.value] + Accepted(rows[1..], hasNote)
      else Accepted(rows[1..], hasNote)
  }

  function RecordOf(id: int, p: EmployeeCreate): Employee {
    Employee(id, p.fullName, p.status, p.date, p.note)
  }

  /** The import loop: every row that parses is created under a fresh id,
      a row that fails is skipped without aborting, and the count is the
      number of records created; records already stored are untouched. */
  function ImportRows(db: Db, rows: seq<SheetRow>, hasNote: bool): (r: (Db, nat))
    requires Valid(db)
    ensures Valid(r.0)
    ensures r.1 == |Accepted(rows, hasNote)|
    ensures r.0.nextId == db.nextId + r.1
    ensures r.0.settings == db.settings && r.0.user == db.user
    decreases |rows|
  {
    if rows == [] then (db, 0)
    else
      var parsed := ParseRow(rows[0], hasNote);
      if parsed.None? then ImportRows(db, rows[1..], hasNote)
      else
        var created := CreateEmployee(db, parsed.value);
        var rest := ImportRows(created.0, rows[1..], hasNote);
        (rest.0, rest.1 + 1)
  }

  /** `m` after storing the records `ps` one by one under consecutive ids
      from `first`, as repeated `CreateEmployee` calls do. */
  function StoreAll(m: map<int, Employee>, first: int, ps: seq<EmployeeCreate>): map<int, Employee>
    decreases |ps|
  {
    if ps == [] then m
    else StoreAll(m[first := RecordOf(first, ps[0])], first + 1, ps[1..])
  }

  /** When every old key lies below `first`, the old entries survive and
      the `j`-th record lands under `first + j`, and nothing else is added. */
  lemma {:induction false} StoreAllContents(m: map<int, Employee>, first: int, ps: seq<EmployeeCreate>)
    requires forall k :: k in m ==> k < first
    ensures forall k :: k in StoreAll(m, first, ps) <==> k in m || first <= k < first + |ps|
    ensures forall k :: k in m ==> StoreAll(m, first, ps)[k] == m[k]
    ensures forall j :: 0 <= j < |ps| ==> StoreAll(m, first, ps)[first + j] == RecordOf(first + j, ps[j])
    decreases |ps|
  {
    if ps != [] {
      var m1 := m[first := RecordOf(first, ps[0])];
      StoreAllContents(m1, first + 1, ps[1..]);
      var r := StoreAll(m, first, ps);
      assert r == StoreAll(m1, first + 1, ps[1..]);
      forall j | 1 <= j < |ps| ensures r[first + j] == RecordOf(first + j, ps[j]) {
        assert first + j == (first + 1) + (j - 1);
      }
    }
  }

  lemma StoreAllCons(m: map<int, Employee>, first: int, p: EmployeeCreate, ps: seq<EmployeeCreate>)
    ensures StoreAll(m, first, [p] + ps) == StoreAll(m[first := RecordOf(first, p)], first + 1, ps)
  {
    assert ([p] + ps)[0] == p && ([p] + ps)[1..] == ps;
  }

  /** Storing a list is creating its first record, then storing the rest. */
  lemma StoreAllCreate(db: Db, p: EmployeeCreate, ps: seq<EmployeeCreate>)
    requires Valid(db) && ValidEmployeeCreate(p)
    ensures StoreAll(db.employees, db.nextId, [p] + ps)
            == StoreAll(CreateEmployee(db, p).0.employees, CreateEmployee(db, p).0.nextId, ps)
  {
    StoreAllCons(db.employees, db.nextId, p, ps);
  }

  /** An import adds exactly the rows that parse, in row order, under
      consecutive ids from the next free key, and changes nothing else. */
  lemma {:induction false} ImportRowsCreatesAccepted(db: Db, rows: seq<SheetRow>, hasNote: bool)
    requires Valid(db)
    ensures ImportRows(db, rows, hasNote).0.employees
            == StoreAll(db.employees, db.nextId, Accepted(rows, hasNote))
    decreases |rows|, 1
  {
    if rows != [] {
      if ParseRow(rows[0], hasNote).None? {
        ImportSkipsRow(db, rows, hasNote);
      } else {
        ImportCreatesRow(db, rows, hasNote);
      }
    }
  }

  /** The induction step for a row that does not parse. */
  lemma {:induction false} ImportSkipsRow(db: Db, rows: seq<SheetRow>, hasNote: bool)
    requires Valid(db) && rows != [] && ParseRow(rows[0], hasNote).None?
    ensures ImportRows(db, rows, hasNote).0.employees
            == StoreAll(db.employees, db.nextId, Accepted(rows, hasNote))
    decreases |rows|, 0
  {
    ImportRowsCreatesAccepted(db, rows[1..], hasNote);
    assert Accepted(rows, hasNote) == Accepted(rows[1..], hasNote);
    assert ImportRows(db, rows, hasNote) == ImportRows(db, rows[1..], hasNote);
  }

  /** One row that parses: it is created first, the rest follow. */
  lemma ImportUnfoldsCreated(db: Db, rows: seq<SheetRow>, hasNote: bool, p: EmployeeCreate)
    requires Valid(db) && rows != [] && ParseRow(rows[0], hasNote) == Some(p)
    ensures ValidEmployeeCreate(p)
    ensures ImportRows(db, rows, hasNote).0.employees
            == ImportRows(CreateEmployee(db, p).0, rows[1..], hasNote).0.employees
    ensures Accepted(rows, hasNote) == [p] + Accepted(rows[1..], hasNote)
  {
  }

  /** The induction step for a row that parses and becomes a record. */
  lemma {:induction false} ImportCreatesRow(db: Db, rows: seq<SheetRow>, hasNote: bool)
    requires Valid(db) && rows != [] && ParseRow(rows[0], hasNote).Some?
    ensures ImportRows(db, rows, hasNote).0.employees
            == StoreAll(db.employees, db.nextId, Accepted(rows, hasNote))
    decreases |rows|, 0
  {
    var p := ParseRow(rows[0], hasNote).value;
    ImportUnfoldsCreated(db, rows, hasNote, p);
    var db1 := CreateEmployee(db, p).0;
    ImportRowsCreatesAccepted(db1, rows[1..], hasNote);
    StoreAllCreate(db, p, Accepted(rows[1..], hasNote));
  }

  /** `POST /employees/import`: 400 for an unreadable file or a sheet
      missing one of the required columns; otherwise the rows are imported
      and the answer is the number created. */
  function ImportEmployees(db: Db, upload: Upload): (r: Response<(Db, nat)>)
    requires Valid(db)
    ensures upload.Unreadable? ==> r == Error(BadRequest)
    ensures upload.Decoded? ==> (r.Error? <==> !(RequiredColumns <= upload.sheet.columns))
    ensures r.Error? ==> r.status == BadRequest
    ensures r.Success? ==> r.body.1 == |Accepted(upload.sheet.rows, NoteColumn in upload.sheet.columns)|
    ensures r.Success? ==> r.body.1 <= |upload.sheet.rows| && Valid(r.body.0)
    ensures r.Success? ==>
      r.body.0.employees == StoreAll(db.employees, db.nextId, Accepted(upload.sheet.rows, NoteColumn in upload.sheet.columns))
    ensures r.Success? ==>
      forall k :: k in db.employees ==> k in r.body.0.employees && r.body.0.employees[k] == db.employees[k]
  {
    match upload
    case Unreadable => Error(BadRequest)
    case Decoded(sheet) =>
      if !(RequiredColumns <= sheet.columns) then Error(BadRequest)
      else
        var hasNote := NoteColumn in sheet.columns;
        ImportRowsCreatesAccepted(db, sheet.rows, hasNote);
        StoreAllContents(db.employees, db.nextId, Accepted(sheet.rows, hasNote));
        Success(ImportRows(db, sheet.rows, hasNote))
  }

  // ---------------------------------------------------------------------
  // Downloads

  /** A download: its file name, the totals the report shows, and the
      report content. */
  datatype Download<C> = Download(filename: string, participants: nat, totalCost: real, content: C)

  /** `employees_{start}_{end}{extension}` with ISO dates. */
  function AttachmentName(start: Dates.Date, end: Dates.Date, extension: string): (name: string)
    requires Dates.Valid(start) && Dates.Valid(end)
    ensures |name| == 31 + |extension| && name[..10] == "employees_" && name[20] == '_'
    ensures Dates.ParseIso(name[10..20]) == Some(start) && Dates.ParseIso(name[21..31]) == Some(end)
    ensures name[31..] == extension
  {
    Dates.FormatThenParse(start);
    Dates.FormatThenParse(end);
    NameSlices(Dates.FormatIso(start), Dates.FormatIso(end), extension);
    "employees_" + Dates.FormatIso(start) + "_" + Dates.FormatIso(end) + extension
  }

  lemma NameSlices(a: string, b: string, extension: string)
    requires |a| == 10 && |b| == 10
    ensures var name := "employees_" + a + "_" + b + extension;
      && |name| == 31 + |extension| && name[..10] == "employees_" && name[20] == '_'
      && name[10..20] == a && name[21..31] == b && name[31..] == extension
  {
  }

  /** What both download endpoints compute before rendering: the listing of
      the range turned into report rows, and the list endpoint's totals. */
  method Report(db: Db, start: Dates.Date, end: Dates.Date, includePrice: bool)
    returns (db': Db, listed: seq<Employee>, rows: seq<Exporter.ExportRow>, participants: nat, totalCost: real)
    requires Valid(db) && Dates.Valid(start) && Dates.Valid(end)
    ensures db' == EnsureSettings(db).0
    ensures participants == AggregateCost(db, Some(start), Some(end)).1
    ensures totalCost == AggregateCost(db, Some(start), Some(end)).2
    ensures |rows| == |AggregateRows(db, Some(start), Some(end))|
    ensures IsListing(db, Some(start), Some(end), listed) && Exporter.DatesValid(listed)
    ensures |rows| == |listed|
    ensures forall i :: 0 <= i < |rows| ==>
      rows[i] == Exporter.RowOf(i + 1, listed[i], includePrice, EnsureSettings(db).1)
  {
    var price;
    db', listed, price := Listing(db, start, end);
    participants := Participants(listed);
    totalCost := participants as real * price;
    rows := Exporter.EmployeesToRows(listed, includePrice, price);
  }

  /** The listing of a closed range, with the facts the reports need of it. */
  method Listing(db: Db, start: Dates.Date, end: Dates.Date) returns (db': Db, employees: seq<Employee>, price: real)
    requires Valid(db)
    ensures (db', price) == EnsureSettings(db)
    ensures IsListing(db, Some(start), Some(end), employees)
    ensures Participants(employees) == AggregateCost(db, Some(start), Some(end)).1
    ensures |employees| == |AggregateRows(db, Some(start), Some(end))|
    ensures Exporter.DatesValid(employees)
  {
    db', employees, price := ListEmployees(db, Some(start), Some(end));
    ListedParticipantsMatchAggregate(db, Some(start), Some(end), employees);
    ListedCount(db, Some(start), Some(end), employees);
    DatesOfListedValid(db, Some(start), Some(end), employees);
  }

  /** `GET /employees/export/excel`: both dates are required (422 without
      them); the totals are those of the list endpoint for the same range;
      the sheet carries one row per listed record, in listing order, and,
      with prices, the summary row. `listed` is the listing it was built
      from. */
  method DownloadExcel(db: Db, start: Option<Dates.Date>, end: Option<Dates.Date>, includePrice: bool)
    returns (db': Db, listed: seq<Employee>, r: Response<Download<seq<map<string, Exporter.Cell>>>>)
    requires Valid(db)
    requires start.Some? ==> Dates.Valid(start.value)
    requires end.Some? ==> Dates.Valid(end.value)
    ensures r.Error? <==> start.None? || end.None?
    ensures r.Error? ==> r.status == Unprocessable && db' == db
    ensures r.Success? ==>
      && r.body.filename == AttachmentName(start.value, end.value, ".xlsx")
      && r.body.participants == AggregateCost(db, start, end).1
      && r.body.totalCost == AggregateCost(db, start, end).2
      && |r.body.content| == |AggregateRows(db, start, end)| + (if includePrice then 1 else 0)
      && IsListing(db, start, end, listed) && Exporter.DatesValid(listed)
      && |listed| == |AggregateRows(db, start, end)|
      && forall i :: 0 <= i < |listed| ==>
           r.body.content[i] == Exporter.Cells(Exporter.RowOf(i + 1, listed[i], includePrice, EnsureSettings(db).1))
  {
    if start.None? || end.None? {
      return db, [], Error(Unprocessable);
    }
    var rows, participants, totalCost;
    db', listed, rows, participants, totalCost := Report(db, start.value, end.value, includePrice);
    var sheet := Exporter.ExcelSheet(rows, includePrice, totalCost);
    r := Success(Download(AttachmentName(start.value, end.value, ".xlsx"), participants, totalCost, sheet));
  }

  /** `GET /employees/export/pdf`: as the Excel download, with the PDF table
      and a `.pdf` name; every cell is the value of its row's record under
      its column's header. */
  method DownloadPdf(db: Db, start: Option<Dates.Date>, end: Option<Dates.Date>, includePrice: bool)
    returns (db': Db, listed: seq<Employee>, r: Response<Download<Exporter.PdfTable>>)
    requires Valid(db)
    requires start.Some? ==> Dates.Valid(start.value)
    requires end.Some? ==> Dates.Valid(end.value)
    ensures r.Error? <==> start.None? || end.None?
    ensures r.Error? ==> r.status == Unprocessable && db' == db
    ensures r.Success? ==>
      && r.body.filename == AttachmentName(start.value, end.value, ".pdf")
      && r.body.participants == AggregateCost(db, start, end).1
      && r.body.totalCost == AggregateCost(db, start, end).2
      && |r.body.content.body| == |AggregateRows(db, start, end)|
      && (r.body.content.total.Some? <==> includePrice)
      && IsListing(db, start, end, listed) && Exporter.DatesValid(listed)
      && |listed| == |AggregateRows(db, start, end)|
      && forall i :: 0 <= i < |listed| ==>
           Exporter.LineShows(r.body.content.headers, r.body.content.body[i],
                              Exporter.RowOf(i + 1, listed[i], includePrice, EnsureSettings(db).1))
  {
    if start.None? || end.None? {
      return db, [], Error(Unprocessable);
    }
    var rows, participants, totalCost;
    db', listed, rows, participants, totalCost := Report(db, start.value, end.value, includePrice);
    var table := Exporter.BuildPdfTable(rows, includePrice, totalCost);
    Exporter.PdfCellsComeFromRows(rows, includePrice, totalCost);
    r := Success(Download(AttachmentName(start.value, end.value, ".pdf"), participants, totalCost, table));
  }

  /** The keys of the records in the range: as many as the listing has rows. */
  function AggregateRows(db: Db, start: Option<Dates.Date>, end: Option<Dates.Date>): set<int> {
    set k | k in db.employees && InRange(db.employees[k].date, start, end)
  }

  lemma DatesOfListedValid(db: Db, start: Option<Dates.Date>, end: Option<Dates.Date>, listed: seq<Employee>)
    requires Valid(db)
    requires forall e :: e in listed ==> e.id in db.employees && db.employees[e.id] == e
    ensures Exporter.DatesValid(listed)
  {
    forall i | 0 <= i < |listed| ensures Dates.Valid(listed[i].date) {
      assert listed[i] in listed;
    }
  }

  /** A listing without repeated ids has one row per record in the range. */
  lemma ListedCount(db: Db, start: Option<Dates.Date>, end: Option<Dates.Date>, listed: seq<Employee>)
    requires Valid(db)
    requires forall e :: e in listed <==>
      e.id in db.employees && db.employees[e.id] == e && InRange(e.date, start, end)
    requires DistinctIds(listed)
    ensures |listed| == |AggregateRows(db, start, end)|
  {
    var ids := AggregateRows(db, start, end);
    IdsOfDistinct(listed);
    forall k | k in ids ensures k in IdsOf(listed) {
      IdIncluded(listed, db.employees[k]);
    }
    IdsWithin(listed, ids);
    assert IdsOf(listed) == ids;
  }

  function IdsOf(s: seq<Employee>): set<int> {
    if s == [] then {} else {s[0].id} + IdsOf(s[1..])
  }

  lemma {:induction false} IdsOfDistinct(s: seq<Employee>)
    requires DistinctIds(s)
    ensures |IdsOf(s)| == |s|
  {
    if s != [] {
      assert DistinctIds(s[1..]);
      IdsOfDistinct(s[1..]);
      IdAbsent(s[1..], s[0].id);
    }
  }

  lemma {:induction false} IdAbsent(s: seq<Employee>, id: int)
    requires forall i :: 0 <= i < |s| ==> s[i].id != id
    ensures id !in IdsOf(s)
  {
    if s != [] {
      IdAbsent(s[1..], id);
    }
  }

  lemma {:induction false} IdIncluded(s: seq<Employee>, e: Employee)
    requires e in s
    ensures e.id in IdsOf(s)
  {
    if s[0] != e {
      IdIncluded(s[1..], e);
    }
  }

  lemma {:induction false} IdsWithin(s: seq<Employee>, ids: set<int>)
    requires forall i :: 0 <= i < |s| ==> s[i].id in ids
    ensures IdsOf(s) <= ids
  {
    if s != [] {
      IdsWithin(s[1..], ids);
    }
  }

  // ---------------------------------------------------------------------
  // Webhook

  /** The secret used when the `WEBHOOK_SECRET` environment variable is unset. */
  const DefaultWebhookSecret := "obed-webhook-secret"

  datatype WebhookReply = Added(id: int) | Updated(id: int) | Deleted(id: int)

  /** Python truthiness of an optional id: present and not 0. */
  predicate IdGiven(id: Option<int>) {
    id.Some? && id.value != 0
  }

  /** `POST /webhook/employee`: a wrong secret is 403 before anything else;
      the action is matched case-insensitively; each action with missing
      data is 400, an unknown id is 404, an unknown action is 400. */
  function Webhook(db: Db, secret: string, p: WebhookPayload): (r: Response<(Db, WebhookReply)>)
    requires Valid(db) && ValidWebhookPayload(p)
    ensures p.secret != secret ==> r == Error(Forbidden)
    ensures r.Error? ==> r.status in {BadRequest, Forbidden, NotFoundStatus}
    ensures p.secret == secret ==> match Text.Lower(p.action)
      case "add" =>
        (p.employee.None? ==> r == Error(BadRequest))
        && (p.employee.Some? ==> r.Success? && r.body.0 == CreateEmployee(db, p.employee.value).0
                                 && r.body.1 == Added(CreateEmployee(db, p.employee.value).1.id))
      case "update" =>
        (!IdGiven(p.employeeId) || p.update.None? ==> r == Error(BadRequest))
        && (IdGiven(p.employeeId) && p.update.Some? ==>
              (r == Error(NotFoundStatus) <==> p.employeeId.value !in db.employees)
              && (r.Success? ==> r.body == (UpdateEmployee(db, p.employeeId.value, p.update.value).value.0,
                                            Updated(p.employeeId.value))))
      case "delete" =>
        (!IdGiven(p.employeeId) ==> r == Error(BadRequest))
        && (IdGiven(p.employeeId) ==>
              (r == Error(NotFoundStatus) <==> p.employeeId.value !in db.employees)
              && (r.Success? ==> r.body == (DeleteEmployee(db, p.employeeId.value).value,
                                            Deleted(p.employeeId.value))))
      case _ => r == Error(BadRequest)
    ensures r.Success? ==> Valid(r.body.0)
  {
    if p.secret != secret then Error(Forbidden)
    else
      var action := Text.Lower(p.action);
      if action == "add" then
        if p.employee.None? then Error(BadRequest)
        else
          var (db', e) := CreateEmployee(db, p.employee.value);
          Success((db', Added(e.id)))
      else if action == "update" then
        if !IdGiven(p.employeeId) || p.update.None? then Error(BadRequest)
        else
          match UpdateEmployee(db, p.employeeId.value, p.update.value)
          case NotFound => Error(NotFoundStatus)
          case Done((db', e)) => Success((db', Updated(e.id)))
      else if action == "delete" then
        if !IdGiven(p.employeeId) then Error(BadRequest)
        else
          match DeleteEmployee(db, p.employeeId.value)
          case NotFound => Error(NotFoundStatus)
          case Done(db') => Success((db', Deleted(p.employeeId.value)))
      else Error(BadRequest)
  }

  /** The webhook answers the same for an action and its lower-cased form. */
  lemma WebhookActionCaseInsensitive(db: Db, secret: string, p: WebhookPayload)
    requires Valid(db) && ValidWebhookPayload(p)
    ensures Webhook(db, secret, p) == Webhook(db, secret, p.(action := Text.Lower(p.action)))
  {
    Text.LowerIdempotent(p.action);
  }
}

=== FILE: logs.dfy ===
/** The in-memory activity log: a newest-first deque that keeps at most
    `MaxLogEntries` entries. Timestamps come from the clock and are taken
    as an opaque parameter. */
module Logs {
  import Text

  const MaxLogEntries: nat := 200

  datatype LogEntry = LogEntry(timestamp: int, level: string, message: string)

  /** The deque's contents, newest first; its capacity is part of the type. */
  type Log = s: seq<LogEntry> | |s| <= MaxLogEntries

  /** `LogManager.add`: push the new entry at the front; a full deque drops
      its last (oldest) entry to make room. */
  function Add(log: Log, timestamp: int, level: string, message: string): (r: Log)
    ensures |r| > 0 && r[0] == LogEntry(timestamp, Text.Upper(level), message)
    ensures |log| < MaxLogEntries ==> |r| == |log| + 1 && r[1..] == log
    ensures |log| == MaxLogEntries ==> |r| == MaxLogEntries && r[1..] == log[..MaxLogEntries - 1]
  {
    var entry := LogEntry(timestamp, Text.Upper(level), message);
    if |log| < MaxLogEntries then [entry] + log
    else [entry] + log[..MaxLogEntries - 1]
  }

  /** `LogManager.list`: a copy of the entries, newest first. */
  function List(log: Log): (r: seq<LogEntry>)
    ensures |r| <= MaxLogEntries
    ensures r == log
  {
    log
  }

  /** One call to `add`, as the arguments it receives. */
  datatype Event = Event(timestamp: int, level: string, message: string)

  function EntryOf(e: Event): LogEntry {
    LogEntry(e.timestamp, Text.Upper(e.level), e.message)
  }

  /** The log after the given calls to `add`, oldest call first, starting
      from an empty deque. */
  function Replay(events: seq<Event>): Log {
    if events == [] then []
    else
      var last := events[|events| - 1];
      Add(Replay(events[..|events| - 1]), last.timestamp, last.level, last.message)
  }

  /** Independent description of the log: the most recent calls, at most
      `MaxLogEntries` of them, newest first. */
  function Expected(events: seq<Event>): (r: seq<LogEntry>)
    ensures |r| == if |events| < MaxLogEntries then |events| else MaxLogEntries
  {
    var n := if |events| < MaxLogEntries then |events| else MaxLogEntries;
    seq(n, i requires 0 <= i < n => EntryOf(events[|events| - 1 - i]))
  }

  /** Any sequence of `add` calls leaves exactly the newest 200 entries,
      newest first, with levels upper-cased and messages verbatim; that is
      what `list` returns. */
  lemma {:induction false} ReplayKeepsNewest(events: seq<Event>)
    ensures Replay(events) == Expected(events)
    ensures List(Replay(events)) == Expected(events)
  {
    if events != [] {
      var prefix := events[..|events| - 1];
      ReplayKeepsNewest(prefix);
      var r := Replay(events);
      var e := Expected(events);
      assert |r| == |e|;
      forall i | 0 <= i < |r|
        ensures r[i] == e[i]
      {
        if i > 0 {
          assert r[i] == Replay(prefix)[i - 1];
          assert prefix[|prefix| - 1 - (i - 1)] == events[|events| - 1 - i];
        }
      }
    }
  }
}

=== FILE: options.dfy ===
/** Optional values and remote-call outcomes shared by every module. */
module Options {

  /** A value that may be absent: Python's `None`, JavaScript's `null`. */
  datatype Option<+T> = None | Some(value: T) {

    /** The carried value, or `default` when absent. */
    function GetOr(default: T): T {
      match this
      case Some(v) => v
      case None => default
    }
  }

  /** The abstract outcome of one request to a remote service: it either
      answered with `data` or failed (transport error, non-2xx status). */
  datatype Remote<+T> = Ok(data: T) | Err
}

=== FILE: schemas.dfy ===
/** The request and response bodies the backend validates, as datatypes,
    with the validation rules of their field declarations. A JSON body is a
    flat object `map<string, Json>`; decoding one yields `None` exactly when
    validation would reject the request with status 422. */
module Schemas {
  import opened Options
  import opened Dates

  /** A JSON scalar as it appears in a request body or query. */
  datatype Json = JStr(s: string) | JBool(b: bool) | JNum(n: real) | JNull

  type JsonObject = map<string, Json>

  datatype Token = Token(accessToken: string, tokenType: string)

  /** A token response; `token_type` takes its declared default. */
  function NewToken(accessToken: string): (t: Token)
    ensures t.accessToken == accessToken && t.tokenType == "bearer"
  {
    Token(accessToken, "bearer")
  }

  /** New credentials: both optional. */
  datatype UserUpdate = UserUpdate(username: Option<string>, password: Option<string>)

  const MinPasswordLength := 6

  predicate ValidUserUpdate(u: UserUpdate) {
    u.password.None? || |u.password.value| >= MinPasswordLength
  }

  /** Validation of the credentials body: a password, when given, needs at
      least six characters; the user name is unconstrained. */
  function MakeUserUpdate(username: Option<string>, password: Option<string>): (r: Option<UserUpdate>)
    ensures r.Some? <==> password.None? || |password.value| >= 6
    ensures r.Some? ==> r.value.username == username && r.value.password == password
    ensures r.Some? ==> ValidUserUpdate(r.value)
  {
    var u := UserUpdate(username, password);
    if ValidUserUpdate(u) then Some(u) else None
  }

  datatype SettingsUpdate = SettingsUpdate(lunchPrice: real)

  predicate ValidSettingsUpdate(s: SettingsUpdate) {
    s.lunchPrice > 0.0
  }

  /** Validation of the price body: only a strictly positive price passes. */
  function MakeSettingsUpdate(lunchPrice: real): (r: Option<SettingsUpdate>)
    ensures r.Some? <==> lunchPrice > 0.0
    ensures r.Some? ==> r.value.lunchPrice == lunchPrice
  {
    var s := SettingsUpdate(lunchPrice);
    if ValidSettingsUpdate(s) then Some(s) else None
  }

  /** `EmployeeCreate` (= `EmployeeBase`): what a new attendance record carries. */
  datatype EmployeeCreate = EmployeeCreate(fullName: string, status: bool, date: Date, note: Option<string>)

  /** A partial update: `None` marks a field the request did not set.
      `note` may be set to null, hence its inner option. */
  datatype EmployeeUpdate = EmployeeUpdate(
    fullName: Option<string>,
    status: Option<bool>,
    date: Option<Date>,
    note: Option<Option<string>>)

  /** A stored attendance record as the API returns it. */
  datatype Employee = Employee(id: int, fullName: string, status: bool, date: Date, note: Option<string>)

  /** The body of `GET /employees`. */
  datatype EmployeeListResponse = EmployeeListResponse(
    employees: seq<Employee>,
    lunchPrice: real,
    totalParticipants: int,
    totalCost: real)

  /** The body of the webhook call: `secret` and `action` are required, the
      rest optional. */
  datatype WebhookPayload = WebhookPayload(
    secret: string,
    action: string,
    employee: Option<EmployeeCreate>,
    employeeId: Option<int>,
    update: Option<EmployeeUpdate>)

  predicate ValidEmployeeCreate(e: EmployeeCreate) {
    Valid(e.date)
  }

  predicate ValidEmployeeUpdate(u: EmployeeUpdate) {
    u.date.None? || Valid(u.date.value)
  }

  predicate ValidWebhookPayload(p: WebhookPayload) {
    (p.employee.None? || ValidEmployeeCreate(p.employee.value))
    && (p.update.None? || ValidEmployeeUpdate(p.update.value))
  }

  /** A field value that decodes as a date: an ISO `YYYY-MM-DD` string. */
  function DecodeDate(j: Json): (r: Option<Date>)
    ensures r.Some? <==> j.JStr? && ParseIso(j.s).Some?
    ensures r.Some? ==> Valid(r.value) && FormatIso(r.value) == j.s
  {
    if j.JStr? then
      var d := ParseIso(j.s);
      if d.Some? then ParseThenFormat(j.s); d else None
    else None
  }

  /** A field value that decodes as an optional string: a string or null. */
  function DecodeNote(j: Json): (r: Option<Option<string>>)
    ensures r.Some? <==> j.JStr? || j.JNull?
    ensures j.JStr? ==> r == Some(Some(j.s))
    ensures j.JNull? ==> r == Some(None)
  {
    match j
    case JStr(s) => Some(Some(s))
    case JNull => Some(None)
    case _ => None
  }

  /** Validation of an `EmployeeCreate` body: `full_name` and `date` are
      required, `status` defaults to true and `note` to null. */
  function DecodeEmployeeCreate(body: JsonObject): (r: Option<EmployeeCreate>)
    ensures r.Some? <==>
      && "full_name" in body && body["full_name"].JStr?
      && "date" in body && DecodeDate(body["date"]).Some?
      && ("status" !in body || body["status"].JBool?)
      && ("note" !in body || DecodeNote(body["note"]).Some?)
    ensures r.Some? ==> ValidEmployeeCreate(r.value)
    ensures r.Some? ==> r.value.status == ("status" !in body || body["status"].b)
    ensures r.Some? && "note" !in body ==> r.value.note.None?
    ensures r.Some? ==>
      && r.value.fullName == body["full_name"].s
      && r.value.date == DecodeDate(body["date"]).value
      && FormatIso(r.value.date) == body["date"].s
      && ("note" in body ==> r.value.note == DecodeNote(body["note"]).value)
  {
    if "full_name" !in body || !body["full_name"].JStr? then None
    else if "date" !in body || DecodeDate(body["date"]).None? then None
    else if "status" in body && !body["status"].JBool? then None
    else if "note" in body && DecodeNote(body["note"]).None? then None
    else
      Some(EmployeeCreate(
        body["full_name"].s,
        if "status" in body then body["status"].b else true,
        DecodeDate(body["date"]).value,
        if "note" in body then DecodeNote(body["note"]).value else None))
  }

  /** Validation of an `EmployeeUpdate` body: every field is optional; a
      field is set exactly when its key is present with a value of its
      type, and only `note` may be null. */
  function DecodeEmployeeUpdate(body: JsonObject): (r: Option<EmployeeUpdate>)
    ensures r.Some? <==>
      && ("full_name" !in body || body["full_name"].JStr?)
      && ("status" !in body || body["status"].JBool?)
      && ("date" !in body || DecodeDate(body["date"]).Some?)
      && ("note" !in body || DecodeNote(body["note"]).Some?)
    ensures r.Some? ==>
      && (r.value.fullName.Some? <==> "full_name" in body)
      && (r.value.status.Some? <==> "status" in body)
      && (r.value.date.Some? <==> "date" in body)
      && (r.value.note.Some? <==> "note" in body)
      && ValidEmployeeUpdate(r.value)
    ensures r.Some? ==>
      && ("full_name" in body ==> r.value.fullName == Some(body["full_name"].s))
      && ("status" in body ==> r.value.status == Some(body["status"].b))
      && ("date" in body ==> r.value.date == DecodeDate(body["date"]) && FormatIso(r.value.date.value) == body["date"].s)
      && ("note" in body ==> r.value.note == DecodeNote(body["note"]))
  {
    if "full_name" in body && !body["full_name"].JStr? then None
    else if "status" in body && !body["status"].JBool? then None
    else if "date" in body && DecodeDate(body["date"]).None? then None
    else if "note" in body && DecodeNote(body["note"]).None? then None
    else
      Some(EmployeeUpdate(
        if "full_name" in body then Some(body["full_name"].s) else None,
        if "status" in body then Some(body["status"].b) else None,
        if "date" in body then DecodeDate(body["date"]) else None,
        if "note" in body then DecodeNote(body["note"]) else None))
  }

  /** The JSON body that carries every field of a new record. */
  function EncodeEmployeeCreate(e: EmployeeCreate): (body: JsonObject)
    requires ValidEmployeeCreate(e)
    ensures body.Keys == {"full_name", "status", "date", "note"}
  {
    map["full_name" := JStr(e.fullName),
        "status" := JBool(e.status),
        "date" := JStr(FormatIso(e.date)),
        "note" := if e.note.Some? then JStr(e.note.value) else JNull]
  }

  /** Encoding a valid record and validating the body gives the record back. */
  lemma CreateRoundTrip(e: EmployeeCreate)
    requires ValidEmployeeCreate(e)
    ensures DecodeEmployeeCreate(EncodeEmployeeCreate(e)) == Some(e)
  {
    FormatThenParse(e.date);
  }
}

=== FILE: text.dfy ===
/** Character-level text helpers standing in for Python's `str.strip`,
    `str.lower` and `str.upper`, and the code-point order SQLite uses when
    it sorts text columns. */
module Text {

  /** Python's `str.isspace` on one character. */
  predicate IsSpace(c: char) {
    var n := c as int;
    (0x09 <= n <= 0x0D) || (0x1C <= n <= 0x20) || n == 0x85 || n == 0xA0 || n == 0x1680
    || (0x2000 <= n <= 0x200A) || n == 0x2028 || n == 0x2029 || n == 0x202F || n == 0x205F
    || n == 0x3000
  }

  /** `str.lstrip()`: drops the leading whitespace run and nothing else. */
  function TrimLeft(s: string): (r: string)
    ensures |r| <= |s| && r == s[|s| - |r|..]
    ensures r == [] || !IsSpace(r[0])
    ensures forall i :: 0 <= i < |s| - |r| ==> IsSpace(s[i])
  {
    if |s| > 0 && IsSpace(s[0]) then TrimLeft(s[1..]) else s
  }

  /** `str.rstrip()`: drops the trailing whitespace run and nothing else. */
  function TrimRight(s: string): (r: string)
    ensures |r| <= |s| && r == s[..|r|]
    ensures r == [] || !IsSpace(r[|r| - 1])
    ensures forall i :: |r| <= i < |s| ==> IsSpace(s[i])
  {
    if |s| > 0 && IsSpace(s[|s| - 1]) then TrimRight(s[..|s| - 1]) else s
  }

  /** `str.strip()`: the longest infix without whitespace at either end. */
  function Strip(s: string): (r: string)
    ensures |r| <= |s|
    ensures r == [] || (!IsSpace(r[0]) && !IsSpace(r[|r| - 1]))
  {
    TrimRight(TrimLeft(s))
  }

  /** Lower-casing of one character: ASCII and the Cyrillic block, where it
      agrees with Python's `str.lower`; other characters are kept. */
  function LowerChar(c: char): (r: char)
    ensures 'A' <= c <= 'Z' ==> r as int == c as int + 32
    ensures !IsUpperLetter(c) ==> r == c
    ensures !IsUpperLetter(r)
  {
    if 'A' <= c <= 'Z' || 'А' <= c <= 'Я' then (c as int + 32) as char
    else if 'Ѐ' <= c <= 'Џ' then (c as int + 80) as char
    else c
  }

  /** Upper-casing of one character, the inverse of `LowerChar` on letters. */
  function UpperChar(c: char): (r: char)
    ensures 'a' <= c <= 'z' ==> r as int == c as int - 32
    ensures !IsLowerLetter(c) ==> r == c
    ensures !IsLowerLetter(r)
  {
    if 'a' <= c <= 'z' || 'а' <= c <= 'я' then (c as int - 32) as char
    else if 'ѐ' <= c <= 'џ' then (c as int - 80) as char
    else c
  }

  predicate IsUpperLetter(c: char) {
    'A' <= c <= 'Z' || 'Ѐ' <= c <= 'Я'
  }

  predicate IsLowerLetter(c: char) {
    'a' <= c <= 'z' || 'а' <= c <= 'џ'
  }

  /** `str.lower()` on ASCII and Cyrillic text. */
  function Lower(s: string): (r: string)
    ensures |r| == |s|
    ensures forall i :: 0 <= i < |s| ==> !IsUpperLetter(r[i])
  {
    if s == [] then [] else [LowerChar(s[0])] + Lower(s[1..])
  }

  /** `str.upper()` on ASCII and Cyrillic text. */
  function Upper(s: string): (r: string)
    ensures |r| == |s|
    ensures forall i :: 0 <= i < |s| ==> !IsLowerLetter(r[i])
  {
    if s == [] then [] else [UpperChar(s[0])] + Upper(s[1..])
  }

  /** Lower-casing twice is lower-casing once. */
  lemma {:induction false} LowerIdempotent(s: string)
    ensures Lower(Lower(s)) == Lower(s)
  {
    if s != [] {
      LowerIdempotent(s[1..]);
      assert Lower(s)[1..] == Lower(s[1..]);
    }
  }

  /** Lexicographic order on code points: SQLite's default BINARY
      collation of UTF-8 text, assumed to be what `full_name.asc()` sorts
      by. */
  predicate StrLe(a: string, b: string) {
    if |a| == 0 then true
    else if |b| == 0 then false
    else if a[0] != b[0] then a[0] < b[0]
    else StrLe(a[1..], b[1..])
  }

  lemma {:induction false} StrLeReflexive(a: string)
    ensures StrLe(a, a)
  {
    if |a| > 0 {
      StrLeReflexive(a[1..]);
    }
  }

  lemma {:induction false} StrLeTotal(a: string, b: string)
    ensures StrLe(a, b) || StrLe(b, a)
  {
    if |a| > 0 && |b| > 0 && a[0] == b[0] {
      StrLeTotal(a[1..], b[1..]);
    }
  }

  lemma {:induction false} StrLeAntisymmetric(a: string, b: string)
    requires StrLe(a, b) && StrLe(b, a)
    ensures a == b
  {
    if |a| > 0 && |b| > 0 {
      StrLeAntisymmetric(a[1..], b[1..]);
      assert a == [a[0]] + a[1..];
      assert b == [b[0]] + b[1..];
    }
  }

  lemma {:induction false} StrLeTransitive(a: string, b: string, c: string)
    requires StrLe(a, b) && StrLe(b, c)
    ensures StrLe(a, c)
  {
    if |a| > 0 && |b| > 0 && |c| > 0 && a[0] == b[0] && b[0] == c[0] {
      StrLeTransitive(a[1..], b[1..], c[1..]);
    }
  }

  lemma LowerCharKeepsSpace(c: char)
    ensures IsSpace(LowerChar(c)) == IsSpace(c)
  {
  }

  lemma {:induction false} LowerSplit(a: string, b: string)
    ensures Lower(a + b) == Lower(a) + Lower(b)
  {
    if a == [] {
      assert a + b == b;
    } else {
      assert (a + b)[0] == a[0];
      assert (a + b)[1..] == a[1..] + b;
      LowerSplit(a[1..], b);
    }
  }

  lemma {:induction false} TrimLeftLower(s: string)
    ensures TrimLeft(Lower(s)) == Lower(TrimLeft(s))
  {
    if s != [] {
      LowerCharKeepsSpace(s[0]);
      TrimLeftLower(s[1..]);
    }
  }

  lemma {:induction false} TrimRightLower(s: string)
    ensures TrimRight(Lower(s)) == Lower(TrimRight(s))
  {
    if s != [] {
      var init := s[..|s| - 1];
      assert s == init + [s[|s| - 1]];
      LowerSplit(init, [s[|s| - 1]]);
      LowerCharKeepsSpace(s[|s| - 1]);
      var ls := Lower(s);
      assert ls[..|ls| - 1] == Lower(init);
      TrimRightLower(init);
    }
  }

  /** Stripping and lower-casing commute: case never touches whitespace. */
  lemma StripLowerCommute(s: string)
    ensures Strip(Lower(s)) == Lower(Strip(s))
  {
    TrimLeftLower(s);
    TrimRightLower(TrimLeft(s));
  }

  /** Padding a text with a space on each side does not change its strip. */
  lemma StripIgnoresPadding(s: string)
    ensures Strip(" " + s + " ") == Strip(s)
  {
    var padded := " " + s + " ";
    assert padded[1..] == s + " ";
    var left := TrimLeft(s + " ");
    assert TrimLeft(padded) == left;
    TrimLeftAppendSpace(s);
    TrimRightAppendSpace(TrimLeft(s));
  }

  lemma {:induction false} TrimLeftAppendSpace(s: string)
    ensures TrimLeft(s + " ") == TrimLeft(s) + " "
            || (TrimLeft(s) == [] && TrimLeft(s + " ") == [])
  {
    if s != [] {
      assert (s + " ")[1..] == s[1..] + " ";
      TrimLeftAppendSpace(s[1..]);
    }
  }

  lemma TrimRightAppendSpace(s: string)
    ensures TrimRight(s + " ") == TrimRight(s)
  {
    assert (s + " ")[..|s|] == s;
  }
}
